=== FILE: README.md ===
# Elysium core logic in Dafny

This project models the engine-independent logic of the Elysium Unity game. It has three parts, all written as pure functions and short methods over `real` and `int`.

1. **Seamless terrain.**
   - `SeamlessTerrainChunk.GenerateHeights` fills a tile's `res × res` height buffer. It maps each sample index to an absolute world coordinate and evaluates the noise primitive there.
   - `SeamlessWorldTerrainManager` comes in two versions, an earlier one and a later one under `ProcedualWorldGen/`. Both lay out a `tilesX × tilesZ` grid of tiles and wire each tile's left/top/right/bottom neighbours.
   - The later version adds `GetHeightAt`, which resolves a world position to its owning tile. It also spawns the player, decorations and enemies on the new ground.
   - The central property is the seam. Adjacent tiles feed identical noise inputs along their shared edge, so they store identical heights there.
2. **Resources and damage.**
   - `Health` clamps hit points into `[0, max]` and keeps a sticky death flag that only a reset clears.
   - `CharacterStats` selects the attack stat, applies flat defense with a floor of 1, and spends and restores stamina and magicka.
3. **Enemy behaviour.**
   - `EnemyAI` is a Patrol/Chase/Attack state machine with a time-based attack cooldown.
   - `GruntEnemyAI` follows a priority rule: the player when in aggro range, otherwise the goal.
   - `EnemySpawner` is a counter and timer that spawns a round of enemies.

Engine services become parameters:

| Engine service | Modelled as |
|---|---|
| `Mathf.PerlinNoise` | the function `noise: (real, real) -> real` |
| `Terrain.SampleHeight` | the function `sample: (Tile, Vec3) -> real` |
| `Random.Range` on floats | a unit fraction interpolated between the bounds (`EngineMath.RandomRange`) |
| `Random.Range` on integers | an index with a range precondition |
| `Time.time`, distances, NavMesh path state | fields of a per-frame input record |

Each `Update` is a step function from one state and one frame to the next state. A `Run` function folds it over a sequence of frames, which is what the trace lemmas are about.

Modules and files:

| file | module | models |
|---|---|---|
| `wrappers.dfy` | `Wrappers` | `Option`, standing in for a null reference |
| `engine_math.dfy` | `EngineMath` | `Mathf.Clamp` and float `Random.Range` |
| `grid.dfy` | `Grid` | the visiting order of a doubly nested `for` loop |
| `terrain_chunk.dfy` | `TerrainChunk` | `SeamlessTerrainChunk` |
| `terrain_world.dfy` | `TerrainWorld` | both `SeamlessWorldTerrainManager` versions |
| `character_stats.dfy` | `CharacterStats` | `CharacterStats` |
| `health.dfy` | `Health` | `Health` |
| `enemy_ai.dfy` | `EnemyAI` | `EnemyAI` |
| `grunt_enemy_ai.dfy` | `GruntEnemyAI` | `GruntEnemyAI` |
| `enemy_spawner.dfy` | `EnemySpawner` | `EnemySpawner` |

## Behaviour of the code worth noting

- **No validation of the grid parameters.** The code checks neither the tile counts, the resolution nor the tile size.
  - `tilesX = 0` simply builds an empty grid.
  - A negative dimension makes the array allocation throw. By then the previous children are already destroyed, so regeneration is not all-or-nothing.
  - The model keeps this as the `NegativeDimensions` status: children cleared, tile array unchanged.
- **A missing tile prefab** is logged, and generation returns before anything is touched. This is the `MissingPrefab` status.
- **`GetHeightAt` asks the engine.** It calls `Terrain.SampleHeight` on the owning tile and adds the tile's elevation, rather than reading the tile's stored samples. The model leaves that call uninterpreted.
- **Unassigned entries of a point array throw.** `patrolPoints` and `spawnPoints` are inspector arrays whose slots may be left empty. Reading the position of such a slot throws, which ends that call of the script's method at that statement. The model records the empty slots as a set of indices and stops each operation where the code would throw.
- **Neighbour order** is left, top, right, bottom, as the engine expects. "Top" is `z + 1` and "bottom" is `z - 1`.
- **Players accumulate.** The player is instantiated without a parent, so regeneration does not destroy it. Each successful `GenerateWorld` of the later version adds one more player when a player prefab is set (`SpawnPlayer` returns early without one). Decorations and enemies are children of the manager and are destroyed with the tiles.
- **The grunt ignores `IsDead`.** Unlike `EnemyAI`, it never checks `IsDead`. A dead player that stays in the scene within aggro range keeps the grunt from heading for the goal (`GruntEnemyAI.DeadPlayerStillHoldsGrunt`).

## Model

| member | source | states |
|---|---|---|
| EngineMath.Clamp | Assets/Scripts/Stats/Health.cs:44 | For `lo <= hi` the result lies in `[lo, hi]`. A value already in range is returned unchanged. Below `lo` gives `lo`, above `hi` gives `hi`. |
| EngineMath.RandomRange | Assets/Scripts/Terrain/ProcedualWorldGen/SeamlessWorldTerrainManager.cs:220-221 | A float draw lies between the two bounds, in either order. Fraction 0 gives the lower bound and 1 the upper. |
| Grid.RowMajor | Assets/Scripts/Terrain/SeamlessTerrainChunk.cs:29-31 | A nested loop over an `n × m` rectangle takes exactly `n·m` steps. |
| Grid.RowMajorStep | Assets/Scripts/Terrain/SeamlessTerrainChunk.cs:29-31 | Step `k` visits an in-range cell `(o, i)` with `k = o·m + i`. |
| Grid.RowMajorCell | Assets/Scripts/Terrain/SeamlessTerrainChunk.cs:29-31 | Cell `(o, i)` is visited at step `o·m + i`. |
| Grid.RowMajorVisitsEachCellOnce | Assets/Scripts/Terrain/SeamlessTerrainChunk.cs:29-31 | The nested loop visits every cell of the rectangle, and none twice. |
| TerrainChunk.SampleCoord | Assets/Scripts/Terrain/SeamlessTerrainChunk.cs:27-39 | Sample index 0 lies on the tile's near edge (`offset`) and index `res-1` on its far edge (`offset + tileSize`). Every index in between stays inside the tile. |
| TerrainChunk.Heights | Assets/Scripts/Terrain/SeamlessTerrainChunk.cs:21-22 | The height buffer is exactly `res × res`. |
| TerrainChunk.FillRow | Assets/Scripts/Terrain/SeamlessTerrainChunk.cs:31-47 | The inner loop writes row `z` as the noise at each sample's world position, columns in increasing x. |
| TerrainChunk.GenerateHeights | Assets/Scripts/Terrain/SeamlessTerrainChunk.cs:10-51 | See the list below this table. |
| TerrainChunk.SeamAlongX | Assets/Scripts/Terrain/SeamlessTerrainChunk.cs:34-46 | Two tiles share tileSize, noiseScale and seed, with offsets one tile apart along x. The last column of the first equals the first column of the second. |
| TerrainChunk.SeamAlongZ | Assets/Scripts/Terrain/SeamlessTerrainChunk.cs:34-46 | The same along z: a tile's last row equals the first row of the tile one tile further along z. |
| TerrainChunk.HeightsInUnitRange | Assets/Scripts/Terrain/SeamlessTerrainChunk.cs:44-46 | When the noise primitive stays in `[0, 1]`, so does every stored height. |
| TerrainWorld.NeighborsOf | Assets/Scripts/Terrain/ProcedualWorldGen/SeamlessWorldTerrainManager.cs:131-146 | A link is null exactly on the corresponding grid border. For an in-grid tile every link is in the grid. |
| TerrainWorld.LinksAreAdjacentCells | Assets/Scripts/Terrain/ProcedualWorldGen/SeamlessWorldTerrainManager.cs:138-143 | Within the grid, the cells a tile links to are exactly its adjacent cells, in both directions. |
| TerrainWorld.NeighborsSymmetric | Assets/Scripts/Terrain/ProcedualWorldGen/SeamlessWorldTerrainManager.cs:138-143 | b is a's right neighbour iff a is b's left neighbour. b is a's top neighbour iff a is b's bottom neighbour. |
| TerrainWorld.SetupNeighbors | Assets/Scripts/Terrain/SeamlessWorldTerrainManager.cs:87-102 | The grid keeps its shape. Every tile is unchanged except that its links become the border-aware neighbour links. |
| TerrainWorld.BuildColumn | Assets/Scripts/Terrain/ProcedualWorldGen/SeamlessWorldTerrainManager.cs:90-110 | The inner grid loop creates tiles `(x, 0) … (x, tilesZ-1)` in order, each placed and generated from the shared settings. |
| TerrainWorld.BuildTiles | Assets/Scripts/Terrain/ProcedualWorldGen/SeamlessWorldTerrainManager.cs:83-111 | The tile array is `tilesX × tilesZ` and every cell `(x, z)` holds tile `(x, z)`. Tiles are created x outer, z inner. |
| TerrainWorld.TileChildrenExact | Assets/Scripts/Terrain/ProcedualWorldGen/SeamlessWorldTerrainManager.cs:88-111 | The grid loop leaves exactly `tilesX·tilesZ` children, all tile objects. Each lies in the grid, every grid cell has one, and no cell has two. |
| TerrainWorld.TileChildPosition | Assets/Scripts/Terrain/ProcedualWorldGen/SeamlessWorldTerrainManager.cs:88-94 | Tile `(x, z)` is instantiated as child number `x·tilesZ + z`. |
| TerrainWorld.RebuildGrid | Assets/Scripts/Terrain/ProcedualWorldGen/SeamlessWorldTerrainManager.cs:69-113 | See the list below this table. |
| TerrainWorld.GenerateWorldEarly | Assets/Scripts/Terrain/SeamlessWorldTerrainManager.cs:39-85 | The earlier version's regeneration, with the same list of outcomes as RebuildGrid below: missing prefab untouched, negative dimension clears children only, otherwise placed, generated and wired tiles as the exact children. |
| TerrainWorld.GridIsSeamless | Assets/Scripts/Terrain/ProcedualWorldGen/SeamlessWorldTerrainManager.cs:88-111 | On a generated grid, each tile's last sample column equals its right neighbour's first column. Its last sample row equals its top neighbour's first row. |
| TerrainWorld.OwnerOf | Assets/Scripts/Terrain/ProcedualWorldGen/SeamlessWorldTerrainManager.cs:150-156 | The resolved tile, when there is one, is inside the grid. |
| TerrainWorld.GetHeightAt | Assets/Scripts/Terrain/ProcedualWorldGen/SeamlessWorldTerrainManager.cs:150-163 | A position whose floor-divided tile index is outside `[0, tilesX) × [0, tilesZ)` has height 0. |
| TerrainWorld.TileIndexIsOwner | Assets/Scripts/Terrain/ProcedualWorldGen/SeamlessWorldTerrainManager.cs:152-153 | For positive tile size, `⌊w / tileSize⌋ = i` iff `i·tileSize <= w < (i+1)·tileSize`. |
| TerrainWorld.OwnerContainsPoint | Assets/Scripts/Terrain/ProcedualWorldGen/SeamlessWorldTerrainManager.cs:152-158 | For positive tile size, a position resolves to a tile iff it lies in `[0, tilesX·tileSize) × [0, tilesZ·tileSize)`. The resolved tile's footprint contains it. |
| TerrainWorld.HeightQueryUsesContainingTile | Assets/Scripts/Terrain/ProcedualWorldGen/SeamlessWorldTerrainManager.cs:150-162 | On a generated grid, the height at a position inside a tile's footprint is that tile's sampled ground height. |
| TerrainWorld.SpawnPlayer | Assets/Scripts/Terrain/ProcedualWorldGen/SeamlessWorldTerrainManager.cs:165-176 | The player spawns only when a prefab is set. It spawns at the world centre, one unit above the queried ground. |
| TerrainWorld.NonNullPicks | Assets/Scripts/Terrain/ProcedualWorldGen/SeamlessWorldTerrainManager.cs:215-218 | The prefabs picked by the draws, null picks skipped. There are never more than draws, and exactly as many when no pick is null. |
| TerrainWorld.ScatterOne | Assets/Scripts/Terrain/ProcedualWorldGen/SeamlessWorldTerrainManager.cs:220-230 | One iteration with a non-null pick places a decoration of exactly that prefab, inside the margins, at ground height, with yaw in `[0, 360]` and scale in `[0.8, 1.3]`. |
| TerrainWorld.ScatterLoopFollowsPicks | Assets/Scripts/Terrain/ProcedualWorldGen/SeamlessWorldTerrainManager.cs:215-231 | The loop places one object per non-null pick and none for a null pick (`continue`), in draw order, each a decoration of its own draw's pick. |
| TerrainWorld.FollowsPicksAt | Assets/Scripts/Terrain/ProcedualWorldGen/SeamlessWorldTerrainManager.cs:217-229 | Placed objects that follow the picks match them position by position: as many objects as picks, object `k` a decoration of pick `k`. |
| TerrainWorld.ScatterLoopPlacesWell | Assets/Scripts/Terrain/ProcedualWorldGen/SeamlessWorldTerrainManager.cs:219-230 | Every object the loop places stands inside the spawn margins, at the queried ground height, with yaw in `[0, 360]` and scale in `[0.8, 1.3]`. |
| TerrainWorld.ScatterPrefabs | Assets/Scripts/Terrain/ProcedualWorldGen/SeamlessWorldTerrainManager.cs:208-232 | An empty prefab array or a non-positive count places nothing. Otherwise one decoration per non-null pick, of that pick's prefab, at most `count` in all, each satisfying the scatter conditions. |
| TerrainWorld.SpawnEnemies | Assets/Scripts/Terrain/ProcedualWorldGen/SeamlessWorldTerrainManager.cs:235-252 | See the list below this table. |
| TerrainWorld.SpawnChildren | Assets/Scripts/Terrain/ProcedualWorldGen/SeamlessWorldTerrainManager.cs:122-126 | See the list below this table. |
| TerrainWorld.Populate | Assets/Scripts/Terrain/ProcedualWorldGen/SeamlessWorldTerrainManager.cs:115-126 | After the grid, the navigation mesh is built once when a surface is set. The tiles and the earlier children are kept, and the new children are exactly the trees, rocks, bushes and enemies in that order. At most one player is appended, the one `SpawnPlayer` places. |
| TerrainWorld.GenerateWorld | Assets/Scripts/Terrain/ProcedualWorldGen/SeamlessWorldTerrainManager.cs:69-129 | See the list below this table. |
| CharacterStats.Awake | Assets/Scripts/Stats/CharacterStats.cs:27-31 | Both pools start full and no other field changes. The result is valid iff both maxima are non-negative. |
| CharacterStats.GetAttackDamage | Assets/Scripts/Stats/CharacterStats.cs:34-44 | Magic damage uses magic power; every other damage type uses strength. |
| CharacterStats.ApplyDefense | Assets/Scripts/Stats/CharacterStats.cs:47-57 | The result is `max(incoming - defense, 1)`, hence at least 1. |
| CharacterStats.DefenseMonotone | Assets/Scripts/Stats/CharacterStats.cs:47-57 | More incoming damage never yields less damage after defense. |
| CharacterStats.DefenseNeverAmplifies | Assets/Scripts/Stats/CharacterStats.cs:47-57 | With non-negative defense and incoming damage of at least 1, defense never raises the damage. When the result exceeds `incoming - defense`, it is the floor 1. |
| CharacterStats.TryUse | Assets/Scripts/Stats/CharacterStats.cs:59-64 | See the list below this table. |
| CharacterStats.Restore | Assets/Scripts/Stats/CharacterStats.cs:73-76 | The maximum is kept. For a non-negative maximum the pool ends in `[0, max]`. A sum already in range is taken as is. |
| CharacterStats.SpendThenRestore | Assets/Scripts/Stats/CharacterStats.cs:59-76 | A successful spend followed by a restore of the same non-negative amount returns the pool unchanged. |
| CharacterStats.TryUseStamina | Assets/Scripts/Stats/CharacterStats.cs:59-64 | Spending stamina succeeds iff enough is held. Magicka and every other field are untouched. |
| CharacterStats.TryUseMagicka | Assets/Scripts/Stats/CharacterStats.cs:66-71 | Spending magicka succeeds iff enough is held. Stamina and every other field are untouched. |
| CharacterStats.RestoreStamina | Assets/Scripts/Stats/CharacterStats.cs:73-76 | Stamina stays in `[0, max]` and nothing else changes. |
| CharacterStats.RestoreMagicka | Assets/Scripts/Stats/CharacterStats.cs:78-81 | Magicka stays in `[0, max]` and nothing else changes. |
| Health.FractionInUnitRange | Assets/Scripts/Stats/Health.cs:45 | For a valid state with positive maximum, the reported fraction `current/max` lies in `[0, 1]`. |
| Health.DeathEffectOf | Assets/Scripts/Stats/Health.cs:52-59 | Destroy takes priority over disable. With neither flag set the object stays. |
| Health.ResetHealth | Assets/Scripts/Stats/Health.cs:26-38 | See the list below this table. |
| Health.TakeDamage | Assets/Scripts/Stats/Health.cs:40-61 | See the list below this table. |
| Health.Heal | Assets/Scripts/Stats/Health.cs:63-69 | See the list below this table. |
| Health.DeadStaysDeadWithoutReset | Assets/Scripts/Stats/Health.cs:40-69 | From a dead state, any run of damage and heal calls leaves the state exactly as it was. |
| Health.OnlyResetRevives | Assets/Scripts/Stats/Health.cs:28 | A run that takes a dead object back to alive contains a reset. |
| Health.ValidityPreserved | Assets/Scripts/Stats/Health.cs:26-69 | Any run of calls keeps `0 <= current <= max`, given non-negative starting values. |
| EnemyAI.Start | Assets/Scripts/AI/EnemyAI.cs:39-46 | The enemy starts in Patrol at index 0. It heads for the first patrol point iff that point exists and is assigned; otherwise it has no destination. |
| EnemyAI.PatrolUpdate | Assets/Scripts/AI/EnemyAI.cs:95-110 | See the list below this table. |
| EnemyAI.ChaseUpdate | Assets/Scripts/AI/EnemyAI.cs:112-134 | See the list below this table. |
| EnemyAI.AttackDamage | Assets/Scripts/AI/EnemyAI.cs:163-184 | See the list below this table. |
| EnemyAI.AttackUpdate | Assets/Scripts/AI/EnemyAI.cs:136-161 | See the list below this table. |
| EnemyAI.Update | Assets/Scripts/AI/EnemyAI.cs:64-93 | See the list below this table. |
| EnemyAI.AttacksSpacedByCooldown | Assets/Scripts/AI/EnemyAI.cs:156-160 | Over any run, successive attacks are at least one cooldown apart. The last attack time is what the enemy remembers. |
| EnemyAI.IndexStaysValid | Assets/Scripts/AI/EnemyAI.cs:107 | The patrol index stays in `[0, patrolPoints.Length)` over any run. |
| GruntEnemyAI.Start | Assets/Scripts/AI/GruntEnemyAI.cs:33-66 | The grunt heads for the goal iff one exists, and is not stopped. |
| GruntEnemyAI.HandleChaseAndAttackPlayer | Assets/Scripts/AI/GruntEnemyAI.cs:94-122 | See the list below this table. |
| GruntEnemyAI.Update | Assets/Scripts/AI/GruntEnemyAI.cs:68-92 | See the list below this table. |
| GruntEnemyAI.DeadPlayerStillHoldsGrunt | Assets/Scripts/AI/GruntEnemyAI.cs:72-83 | A dead player with a health component within aggro range still keeps the grunt off the goal. The grunt's hits change nothing. |
| GruntEnemyAI.GoneGoalLeavesGruntAlone | Assets/Scripts/AI/GruntEnemyAI.cs:68-92 | Over frames in which the goal no longer exists and no player is in aggro range, the grunt is left exactly as it was and never attacks. |
| GruntEnemyAI.AttacksSpacedByCooldown | Assets/Scripts/AI/GruntEnemyAI.cs:116-120 | Over any run, the grunt's attacks on the player are at least one cooldown apart. |
| GruntEnemyAI.OnTriggerEnter | Assets/Scripts/AI/GruntEnemyAI.cs:124-148 | See the list below this table. |
| GruntEnemyAI.HittingGoalKillsGrunt | Assets/Scripts/AI/GruntEnemyAI.cs:135-141 | A grunt whose valid health is at most 9999 dies on reaching the goal with `destroyOnHitGoal` set. |
| EnemySpawner.Start | Assets/Scripts/AI/EnemySpawner.cs:16-22 | Spawning is on iff `autoStart` is set and a prefab and spawn points exist. The count starts at 0. |
| EnemySpawner.BeginSpawning | Assets/Scripts/AI/EnemySpawner.cs:24-35 | A missing prefab or empty spawn points is a no-op. Otherwise the count resets to 0, spawning starts, and the first spawn is due one interval later. |
| EnemySpawner.Update | Assets/Scripts/AI/EnemySpawner.cs:37-62 | See the list below this table. |
| EnemySpawner.UnassignedPointsStallSpawner | Assets/Scripts/AI/EnemySpawner.cs:48-61 | While every frame's draw lands on an unassigned spawn point, a running spawner neither counts a spawn nor reschedules, so nothing changes. |
| EnemySpawner.StoppedStaysStopped | Assets/Scripts/AI/EnemySpawner.cs:39 | Once spawning has stopped, no later frame changes anything. |
| EnemySpawner.SpawnsCountedAndSpaced | Assets/Scripts/AI/EnemySpawner.cs:41-53 | See the list below this table. |
| EnemySpawner.AtMostTotalSpawned | Assets/Scripts/AI/EnemySpawner.cs:24-53 | A round started by `BeginSpawning` spawns at most `max(totalToSpawn, 0)` enemies. |

Members whose contracts have several parts:

- **TerrainChunk.GenerateHeights**
  - The terrain size becomes `(tileSize, heightScale, tileSize)`.
  - Cell `[z][x]` holds the noise at that sample's world point, so the buffer depends only on the offset, tile size, noise scale, seed and resolution.
  - Every cell is written exactly once, z outer and x inner.
- **TerrainWorld.RebuildGrid**
  - A missing prefab leaves everything untouched.
  - A negative dimension clears the children only.
  - Otherwise, tile `(x, z)` sits at `(x·tileSize, 0, z·tileSize)`, takes that same point as its noise offset, and shares the global parameters. It is wired to its neighbours.
  - The children are exactly the `tilesX·tilesZ` tiles, each once.
- **TerrainWorld.SpawnEnemies**
  - Exactly `enemyCount` enemies are placed, or none without a prefab or with a non-positive count.
  - Each lies in the middle half `[0.25, 0.75]` of both world axes, at the queried ground height. With a negative tile size the world extends the other way, and the same bounds hold in reverse order.
- **TerrainWorld.GenerateWorld**
  - The grid is generated as in RebuildGrid.
  - The navigation mesh is built once when a surface is set.
  - With a player prefab, exactly one player is appended, at the world centre. Without one, the players are unchanged.
  - The grid is generated iff the tile prefab is set and neither dimension is negative.
  - The tile array has `tilesX` columns of `tilesZ` tiles, and the tiles come first among the children.
  - The children after the tiles are exactly SpawnChildren's trees, rocks, bushes and enemies, none of them a tile.
  - The new player stands at the world centre, one unit above `GetHeightAt` there.
- **TerrainWorld.SpawnChildren**
  - There are `ScatterCount` trees, then rocks, then bushes, one per non-null pick, or none for an empty prefab array or a non-positive count. Then come `EnemyTotal` enemies.
  - Every child before the enemies is a decoration. Every enemy is an instance of the enemy prefab.
- **CharacterStats.TryUse**
  - The spend succeeds iff `current >= amount`.
  - On failure the pool is unchanged.
  - On success exactly `amount` is taken and the pool stays non-negative.
- **Health.ResetHealth**
  - The object is alive again and the health-changed event is raised.
  - The maximum is replaced by the starting value when one is configured.
  - Current health equals the maximum.
- **Health.TakeDamage**
  - Once dead, nothing at all happens.
  - Otherwise current becomes `Clamp(current - amount, 0, max)`, and the object dies iff it reaches 0, with the configured death effect.
  - Validity is kept.
- **Health.Heal**
  - Once dead, nothing happens.
  - Otherwise current becomes `Clamp(current + amount, 0, max)`.
  - It never exceeds the maximum, never kills and never revives.
- **EnemyAI.PatrolUpdate**
  - The agent always moves and the index stays valid.
  - On reaching the waypoint with no path pending, the index advances by one and wraps to 0, and the agent heads for that point.
  - If that next point is unassigned, the index still advances, but the call throws before the destination changes.
  - Before arrival only the stopped flag is cleared.
- **EnemyAI.ChaseUpdate**
  - Beyond the lose-aggro range (checked first) the enemy returns to Patrol, heading for its current patrol point.
  - If that point is unassigned, the call throws after the agent is sent after the player, so the enemy stays in Chase.
  - Otherwise, within attack range it switches to Attack and stops.
  - Otherwise it keeps chasing the player.
- **EnemyAI.AttackDamage**
  - Damage is dealt iff the player has health and is alive.
  - Base damage plus the enemy's attack stat passes through the player's defense.
  - Each term is dropped when its stats component is absent: enemy stats alone give base damage plus the attack stat, player stats alone give the base damage through defense.
  - With player stats the damage is at least 1.
- **EnemyAI.AttackUpdate**
  - More than half a unit beyond attack range, the enemy returns to Chase without attacking.
  - Otherwise it attacks iff the cooldown has elapsed, recording the time and applying `TakeDamage` with the composed damage.
- **EnemyAI.Update**
  - With no engageable player the enemy just patrols: the result is exactly PatrolUpdate's, whatever the state, and there is no attack.
  - In Patrol the enemy takes the patrol step. Patrol → Chase iff within aggro range and the patrol step did not throw, never straight to Attack.
  - Chase is exactly ChaseUpdate: beyond lose-aggro range, Chase → Patrol iff there are no patrol points or the current one is assigned.
  - Attack → Chase iff beyond attack range + 0.5, never straight to Patrol.
  - In Attack the enemy swings iff it is within attack range + 0.5 and the cooldown has elapsed. A swing deals `AttackDamage` to the player through `TakeDamage` and records the time. Only the Attack state attacks.
- **GruntEnemyAI.HandleChaseAndAttackPlayer**
  - Beyond attack range the grunt chases without stopping.
  - Within attack range it stops, and hits the player for `damageToPlayer` iff the cooldown has elapsed, recording the time.
- **GruntEnemyAI.Update**
  - A disabled agent changes nothing.
  - A player with health within aggro range takes priority.
  - Otherwise the grunt heads, unstopped, for the goal while it still exists, and is left as it was once the goal is gone.
  - In the player branch the grunt hits iff the player is within attack range and the cooldown has elapsed. A hit applies `damageToPlayer` through `TakeDamage`; without a hit the player's health is unchanged.
  - Attacks happen only in the player branch.
- **GruntEnemyAI.OnTriggerEnter**
  - Only the goal matters, and it takes `damageToGoal` through `TakeDamage`.
  - With `destroyOnHitGoal`, the grunt takes 9999 damage itself, or is destroyed by this handler directly iff it has no health component.
- **EnemySpawner.Update**
  - Nothing happens when not spawning.
  - It stops once the count reaches the total.
  - Otherwise a spawn is counted iff the scheduled time has come and `SpawnOne` does not throw. The count then rises by 1 and the next spawn is one interval later.
  - The spawn point used is in `[0, spawnPoints.Length)`, and one is used whenever a prefab and points exist.
  - If the drawn point is unassigned, `SpawnOne` throws before the count and schedule change, so the frame changes nothing.
- **EnemySpawner.SpawnsCountedAndSpaced**
  - Over any run, the final count is the start count plus the spawns made, and never exceeds the total.
  - The first spawn is no earlier than scheduled.
  - Successive spawns are at least one interval apart.

## Left out

- TerrainChunk.GenerateHeights: requires a resolution of at least 2 (as do RebuildGrid and GenerateWorld). At resolution 1 the single sample computes `0 / 0` and stores a NaN height. At 0 the buffer is empty and nothing is stored. A negative resolution makes the `new float[res, res]` allocation throw. NaN and exceptions have no counterpart over `real`. The engine's own rounding of `heightmapResolution` to a power of two plus one, clamped to at least 33, is not modelled; the configured value is used as is.
- TerrainWorld.GetHeightAt: its contract states only the out-of-range case. The in-range value is stated by HeightQueryUsesContainingTile, for generated grids with positive tile size.
- TerrainWorld.GetHeightAt: with a zero tile size the code's division yields a non-finite value whose integer conversion is out of range. The model returns 0 directly.
- TerrainWorld.GetHeightAt: integer overflow of `Mathf.FloorToInt` for coordinates beyond the 32-bit range is not modelled.
- Float rounding is not modelled; all arithmetic is over `real`. The seam equality is exact over the reals, which IEEE single precision does not guarantee.
- Tile names, `Instantiate`, `Destroy`/`DestroyImmediate`, `SetActive`, `TerrainData.SetHeights` and `Terrain.SetNeighbors` are engine calls. Their effects appear as fields of the scene, tile or outcome records.
- The cloned template terrain data is not modelled. When the prefab lacks the height-generation component, its heights are left as None.
- `NavMeshSurface.BuildNavMesh` is reduced to a build counter. All `NavMeshAgent` calls are reduced to a destination and a stopped flag. Agent speed and stopping distance have no decision effect.
- Quaternion facing and slerp in both AI scripts are pure rotation numerics with no decision effect.
- Scatter rotations are reduced to the drawn yaw angle and scales to the drawn factor.
- `onDeath` and `onHealthChanged01` are UnityEvents. They are reduced to the `reported`/`died` flags of `Health.Outcome` and the value of `Health.Fraction`.
- Debug logging is left out.
- The camera hookup in `SpawnPlayer` is left out.
- The player and goal are looked up by tag once at start. The model makes the player part of every frame's input. The goal found at start is a configuration flag, and whether that object still exists is a flag of every frame, since `Update` tests it each frame.
- EnemySpawner.Update: a spawn point array set to null after spawning has begun makes the code throw. The model treats such an array as empty. Unassigned entries of an array are modelled.
- EnemyAI.Start: an unassigned first patrol point also skips the player lookup that follows it in the code. The model takes the player from each frame, so it does not carry that lookup's absence into later frames.
- Health.ValidityPreserved: requires every configured starting value to be non-negative. A negative one makes the reset state invalid, which the model states in `ResetHealth`.
- CharacterStats.TryUse: keeps the pool valid only for non-negative amounts. A negative amount always succeeds and can raise the pool above its maximum, as in the code.
- `PlayerController`, `PlayerMotor`, `Interactable`, `EnemyDeathReporter`, `BaseHealthBarUI`, `DamageDealer`, `PlayerAttack` and `GameManager` are input handling, UI and event wiring outside the modelled logic. The `DamageType` enumeration's declaration is not part of this model. It is modelled as Physical, Magic and any other value.

=== FILE: character_stats.dfy ===
/** A character's combat numbers and its two spendable resources
    (`CharacterStats`). */
module CharacterStats {
  import opened EngineMath

  /** The damage kinds. Magic and Physical are the ones the code names; any
      other value of the enumeration takes the `default` branch. */
  datatype DamageType = Physical | Magic | Other(code: int)

  /** A spendable resource (stamina or magicka). */
  datatype Pool = Pool(current: real, max: real)

  datatype Stats = Stats(
    level: int,
    strength: real,
    magicPower: real,
    defense: real,
    stamina: Pool,
    magicka: Pool)

  /** The range a pool is kept in by its restore operation. */
  predicate PoolValid(p: Pool) {
    0.0 <= p.current <= p.max
  }

  predicate Valid(s: Stats) {
    PoolValid(s.stamina) && PoolValid(s.magicka)
  }

  /** `Awake`: both pools start full; nothing else changes. The result is
      valid exactly when neither maximum is negative. */
  function Awake(s: Stats): (r: Stats)
    ensures r.stamina.current == r.stamina.max == s.stamina.max
    ensures r.magicka.current == r.magicka.max == s.magicka.max
    ensures r.(stamina := s.stamina, magicka := s.magicka) == s
    ensures Valid(r) <==> s.stamina.max >= 0.0 && s.magicka.max >= 0.0
  {
    s.(stamina := Pool(s.stamina.max, s.stamina.max),
       magicka := Pool(s.magicka.max, s.magicka.max))
  }

  /** `GetAttackDamage`: magic power for magic damage, strength for every
      other damage type. */
  function GetAttackDamage(s: Stats, t: DamageType): (r: real)
    ensures t == Magic ==> r == s.magicPower
    ensures t != Magic ==> r == s.strength
  {
    match t
    case Magic => s.magicPower
    case Physical => s.strength
    case Other(_) => s.strength
  }

  /** `ApplyDefense`: flat reduction by the defense value, never below 1. */
  function ApplyDefense(s: Stats, incoming: real): (r: real)
    ensures r == Max(incoming - s.defense, 1.0)
    ensures r >= 1.0 && r >= incoming - s.defense
    ensures r == 1.0 || r == incoming - s.defense
  {
    var reduced := incoming - s.defense;
    if reduced < 1.0 then 1.0 else reduced
  }

  /** A harder hit is never reduced below a softer one. */
  lemma DefenseMonotone(s: Stats, a: real, b: real)
    requires a <= b
    ensures ApplyDefense(s, a) <= ApplyDefense(s, b)
  {
  }

  /** With non-negative defense, a hit of at least 1 is never amplified; the
      floor of 1 is the only way a result can exceed `incoming - defense`. */
  lemma DefenseNeverAmplifies(s: Stats, incoming: real)
    requires s.defense >= 0.0 && incoming >= 1.0
    ensures ApplyDefense(s, incoming) <= incoming
    ensures ApplyDefense(s, incoming) > incoming - s.defense ==> ApplyDefense(s, incoming) == 1.0
  {
  }

  /** Spending from a pool: refused, with the pool untouched, when it holds
      less than `amount`; otherwise exactly `amount` is taken, which cannot
      leave it negative. */
  function TryUse(p: Pool, amount: real): (r: (bool, Pool))
    ensures r.0 <==> p.current >= amount
    ensures !r.0 ==> r.1 == p
    ensures r.0 ==> r.1.max == p.max && r.1.current == p.current - amount && r.1.current >= 0.0
    ensures PoolValid(p) && amount >= 0.0 ==> PoolValid(r.1)
  {
    if p.current < amount then (false, p) else (true, p.(current := p.current - amount))
  }

  /** Restoring a pool: the sum is clamped into [0, max]. */
  function Restore(p: Pool, amount: real): (r: Pool)
    ensures r.max == p.max
    ensures p.max >= 0.0 ==> PoolValid(r)
    ensures 0.0 <= p.current + amount <= p.max ==> r.current == p.current + amount
  {
    p.(current := Clamp(p.current + amount, 0.0, p.max))
  }

  /** A successful spend of a non-negative amount followed by a restore of the
      same amount gives the pool back unchanged. */
  lemma SpendThenRestore(p: Pool, amount: real)
    requires PoolValid(p) && amount >= 0.0
    requires TryUse(p, amount).0
    ensures Restore(TryUse(p, amount).1, amount) == p
  {
  }

  /** `TryUseStamina`: spends stamina; magicka and every other field are
      untouched. */
  function TryUseStamina(s: Stats, amount: real): (r: (bool, Stats))
    ensures r.0 <==> s.stamina.current >= amount
    ensures r.1.magicka == s.magicka && r.1.(stamina := s.stamina) == s
    ensures r.1.stamina == TryUse(s.stamina, amount).1
  {
    var (ok, p) := TryUse(s.stamina, amount);
    (ok, s.(stamina := p))
  }

  /** `TryUseMagicka`: the same for magicka. */
  function TryUseMagicka(s: Stats, amount: real): (r: (bool, Stats))
    ensures r.0 <==> s.magicka.current >= amount
    ensures r.1.stamina == s.stamina && r.1.(magicka := s.magicka) == s
    ensures r.1.magicka == TryUse(s.magicka, amount).1
  {
    var (ok, p) := TryUse(s.magicka, amount);
    (ok, s.(magicka := p))
  }

  /** `RestoreStamina`: stamina stays within [0, max]; nothing else changes. */
  function RestoreStamina(s: Stats, amount: real): (r: Stats)
    ensures r.(stamina := s.stamina) == s
    ensures s.stamina.max >= 0.0 ==> PoolValid(r.stamina)
    ensures r.stamina == Restore(s.stamina, amount)
  {
    s.(stamina := Restore(s.stamina, amount))
  }

  /** `RestoreMagicka`: magicka stays within [0, max]; nothing else changes. */
  function RestoreMagicka(s: Stats, amount: real): (r: Stats)
    ensures r.(magicka := s.magicka) == s
    ensures s.magicka.max >= 0.0 ==> PoolValid(r.magicka)
    ensures r.magicka == Restore(s.magicka, amount)
  {
    s.(magicka := Restore(s.magicka, amount))
  }
}

=== FILE: enemy_ai.dfy ===
/** The patrolling enemy (`EnemyAI`): a Patrol / Chase / Attack state machine
    driven by the distance to the player and a time-based attack cooldown.
    Each frame's engine inputs (player presence, distance, clock, path
    status) are parameters, so one `Update` is a pure step. */
module EnemyAI {
  import opened Wrappers
  import opened CharacterStats
  import opened Health

  datatype AIState = Patrol | Chase | Attack

  /** Where the navigation agent is heading. */
  datatype Destination = NoDestination | PatrolPoint(index: int) | PlayerPosition

  /** The navigation agent's observable settings. */
  datatype Agent = Agent(isStopped: bool, destination: Destination)

  /** Inspector settings and sibling components. `patrolCount` is the length
      of the patrol point array (0 when it is null) and `nullPoints` the
      indices of its unassigned entries; `stats` the enemy's own stats
      component, if any. */
  datatype EnemyConfig = EnemyConfig(
    patrolCount: nat,
    nullPoints: set<int>,
    waypointTolerance: real,
    aggroRange: real,
    loseAggroRange: real,
    attackRange: real,
    attackCooldown: real,
    baseDamage: real,
    damageType: DamageType,
    stats: Option<Stats>)

  datatype Enemy = Enemy(state: AIState, patrolIndex: int, lastAttackTime: real, agent: Agent)

  /** The player as this enemy sees it in one frame: its distance, its health
      component and its stats component (each possibly missing). */
  datatype PlayerView = PlayerView(distance: real, health: Option<HealthState>, stats: Option<Stats>)

  /** One frame: the player (None when no player was found or it is gone),
      `Time.time`, and the agent's path status. */
  datatype Frame = Frame(player: Option<PlayerView>, time: real, pathPending: bool, remainingDistance: real)

  /** The step's outcome: the new enemy state, the player's health after any
      hit, whether an attack was made (cooldown consumed), and the damage it
      dealt. */
  datatype Step = Step(enemy: Enemy, playerHealth: Option<HealthState>, swung: bool, hit: Option<real>)

  /** The patrol index stays a valid patrol-point index. */
  predicate IndexValid(cfg: EnemyConfig, e: Enemy) {
    0 <= e.patrolIndex && (cfg.patrolCount > 0 ==> e.patrolIndex < cfg.patrolCount)
  }

  /** Whether patrol point `i` exists and is assigned; reading the position
      of an unassigned entry throws. */
  predicate PointUsable(cfg: EnemyConfig, i: int) {
    0 <= i < cfg.patrolCount && i !in cfg.nullPoints
  }

  /** `Start`: patrolling from the first point, no attack yet. An unassigned
      first point throws before the destination is set. */
  function Start(cfg: EnemyConfig): (e: Enemy)
    ensures e.state == Patrol && e.patrolIndex == 0 && IndexValid(cfg, e)
    ensures e.agent.destination == (if PointUsable(cfg, 0) then PatrolPoint(0) else NoDestination)
  {
    Enemy(Patrol, 0, -999.0, Agent(false, if PointUsable(cfg, 0) then PatrolPoint(0) else NoDestination))
  }

  /** Whether this frame's `PatrolUpdate` reaches its waypoint and moves on. */
  predicate Arrived(cfg: EnemyConfig, f: Frame) {
    cfg.patrolCount > 0 && !f.pathPending && f.remainingDistance <= cfg.waypointTolerance
  }

  /** Whether this frame's `PatrolUpdate` throws: it moves on to an
      unassigned patrol point. */
  predicate PatrolThrows(cfg: EnemyConfig, e: Enemy, f: Frame) {
    Arrived(cfg, f) && (e.patrolIndex + 1) % cfg.patrolCount in cfg.nullPoints
  }

  /** `PatrolUpdate`: keep moving; on reaching the current waypoint, head for
      the next one, wrapping around. An unassigned next point throws after
      the index has advanced, so the destination stays as it was. */
  function PatrolUpdate(cfg: EnemyConfig, e: Enemy, f: Frame): (r: Enemy)
    ensures r.state == e.state && r.lastAttackTime == e.lastAttackTime && !r.agent.isStopped
    ensures IndexValid(cfg, e) ==> IndexValid(cfg, r)
    ensures Arrived(cfg, f) && !PatrolThrows(cfg, e, f) ==> r.agent.destination == PatrolPoint(r.patrolIndex)
    ensures PatrolThrows(cfg, e, f) ==> r.agent.destination == e.agent.destination
    ensures IndexValid(cfg, e) && Arrived(cfg, f) ==>
      r.patrolIndex == (if e.patrolIndex == cfg.patrolCount - 1 then 0 else e.patrolIndex + 1)
    ensures !Arrived(cfg, f) ==> r == e.(agent := e.agent.(isStopped := false))
  {
    if cfg.patrolCount == 0 then e.(agent := e.agent.(isStopped := false))
    else if !f.pathPending && f.remainingDistance <= cfg.waypointTolerance then
      var next := (e.patrolIndex + 1) % cfg.patrolCount;
      if next in cfg.nullPoints then e.(patrolIndex := next, agent := e.agent.(isStopped := false))
      else e.(patrolIndex := next, agent := Agent(false, PatrolPoint(next)))
    else e.(agent := e.agent.(isStopped := false))
  }

  /** `ChaseUpdate`: follow the player; give up beyond the lose-aggro range
      (checked first), otherwise stop and attack within attack range. Giving
      up towards an unassigned patrol point throws before the state changes. */
  function ChaseUpdate(cfg: EnemyConfig, e: Enemy, dist: real): (r: Enemy)
    ensures r.patrolIndex == e.patrolIndex && r.lastAttackTime == e.lastAttackTime
    ensures dist > cfg.loseAggroRange ==> !r.agent.isStopped
    ensures dist > cfg.loseAggroRange && (cfg.patrolCount == 0 || e.patrolIndex !in cfg.nullPoints) ==>
      r.state == Patrol
    ensures dist > cfg.loseAggroRange && cfg.patrolCount > 0 && e.patrolIndex !in cfg.nullPoints ==>
      r.agent.destination == PatrolPoint(e.patrolIndex)
    ensures dist > cfg.loseAggroRange && cfg.patrolCount > 0 && e.patrolIndex in cfg.nullPoints ==>
      r.state == e.state && r.agent == Agent(false, PlayerPosition)
    ensures dist <= cfg.loseAggroRange && dist <= cfg.attackRange ==> r.state == Attack && r.agent.isStopped
    ensures dist <= cfg.loseAggroRange && dist > cfg.attackRange ==>
      r.state == e.state && r.agent == Agent(false, PlayerPosition)
  {
    var chasing := e.(agent := Agent(false, PlayerPosition));
    if dist > cfg.loseAggroRange && cfg.patrolCount > 0 && e.patrolIndex in cfg.nullPoints then chasing
    else if dist > cfg.loseAggroRange then
      var dest := if cfg.patrolCount > 0 then PatrolPoint(e.patrolIndex) else PlayerPosition;
      chasing.(state := Patrol, agent := Agent(false, dest))
    else if dist <= cfg.attackRange then
      chasing.(state := Attack, agent := chasing.agent.(isStopped := true))
    else chasing
  }

  /** `DoAttack`: base damage plus the enemy's attack stat (when it has
      stats), reduced by the player's defense (when the player has stats),
      dealt to a living player. None when nothing is dealt. */
  function AttackDamage(cfg: EnemyConfig, p: PlayerView): (r: Option<real>)
    ensures r.Some? <==> p.health.Some? && !p.health.value.isDead
    ensures r.Some? && p.stats.Some? ==> r.value >= 1.0
    ensures r.Some? && cfg.stats.Some? && p.stats.Some? ==>
      r.value == ApplyDefense(p.stats.value, cfg.baseDamage + GetAttackDamage(cfg.stats.value, cfg.damageType))
    ensures r.Some? && cfg.stats.Some? && p.stats.None? ==>
      r.value == cfg.baseDamage + GetAttackDamage(cfg.stats.value, cfg.damageType)
    ensures r.Some? && cfg.stats.None? && p.stats.Some? ==> r.value == ApplyDefense(p.stats.value, cfg.baseDamage)
    ensures r.Some? && cfg.stats.None? && p.stats.None? ==> r.value == cfg.baseDamage
  {
    if p.health.None? || p.health.value.isDead then None
    else
      var raw := cfg.baseDamage + match cfg.stats { case Some(s) => GetAttackDamage(s, cfg.damageType) case None => 0.0 };
      Some(match p.stats { case Some(ps) => ApplyDefense(ps, raw) case None => raw })
  }

  /** `AttackUpdate`: fall back to chasing once the player is more than half
      a unit beyond attack range (no attack that frame); otherwise attack
      whenever the cooldown has elapsed. */
  function AttackUpdate(cfg: EnemyConfig, e: Enemy, p: PlayerView, time: real): (r: Step)
    ensures r.enemy.patrolIndex == e.patrolIndex
    ensures p.distance > cfg.attackRange + 0.5 ==>
      && r.enemy.state == Chase && !r.enemy.agent.isStopped && !r.swung
      && r.enemy.lastAttackTime == e.lastAttackTime && r.playerHealth == p.health
    ensures p.distance <= cfg.attackRange + 0.5 ==>
      && r.enemy.state == e.state
      && (r.swung <==> time >= e.lastAttackTime + cfg.attackCooldown)
    ensures r.swung ==> r.enemy.lastAttackTime == time && r.hit == AttackDamage(cfg, p)
    ensures !r.swung ==> r.enemy.lastAttackTime == e.lastAttackTime && r.hit.None? && r.playerHealth == p.health
    ensures r.hit.Some? ==> r.playerHealth == Some(TakeDamage(p.health.value, r.hit.value).state)
  {
    if p.distance > cfg.attackRange + 0.5 then
      Step(e.(state := Chase, agent := e.agent.(isStopped := false)), p.health, false, None)
    else if time >= e.lastAttackTime + cfg.attackCooldown then
      var dmg := AttackDamage(cfg, p);
      var after := if dmg.Some? then Some(TakeDamage(p.health.value, dmg.value).state) else p.health;
      Step(e.(lastAttackTime := time), after, true, dmg)
    else Step(e, p.health, false, None)
  }

  /** The player is someone to fight: present, with health, alive. */
  predicate Engageable(f: Frame) {
    f.player.Some? && f.player.value.health.Some? && !f.player.value.health.value.isDead
  }

  /** `Update`: one frame of the state machine. */
  function Update(cfg: EnemyConfig, e: Enemy, f: Frame): (r: Step)
    ensures IndexValid(cfg, e) ==> IndexValid(cfg, r.enemy)
    ensures !Engageable(f) ==>
      r.enemy.state == e.state && !r.swung && r.hit.None? && r.enemy.lastAttackTime == e.lastAttackTime
    ensures Engageable(f) && e.state == Patrol ==>
      && (r.enemy.state == Chase <==> f.player.value.distance <= cfg.aggroRange && !PatrolThrows(cfg, e, f))
      && r.enemy.state != Attack && !r.swung
    ensures Engageable(f) && e.state == Chase ==>
      && !r.swung
      && (f.player.value.distance > cfg.loseAggroRange ==>
            (r.enemy.state == Patrol <==> cfg.patrolCount == 0 || e.patrolIndex !in cfg.nullPoints))
      && (f.player.value.distance <= cfg.loseAggroRange && f.player.value.distance <= cfg.attackRange ==> r.enemy.state == Attack)
      && (f.player.value.distance <= cfg.loseAggroRange && f.player.value.distance > cfg.attackRange ==> r.enemy.state == Chase)
    ensures Engageable(f) && e.state == Attack ==>
      (r.enemy.state == Chase <==> f.player.value.distance > cfg.attackRange + 0.5) && r.enemy.state != Patrol
    ensures !Engageable(f) ==> r.enemy == PatrolUpdate(cfg, e, f)
    ensures Engageable(f) && e.state == Patrol ==> r.enemy.(state := Patrol) == PatrolUpdate(cfg, e, f)
    ensures Engageable(f) && e.state == Chase ==> r.enemy == ChaseUpdate(cfg, e, f.player.value.distance)
    ensures Engageable(f) && e.state == Attack ==>
      (r.swung <==> f.player.value.distance <= cfg.attackRange + 0.5 && f.time >= e.lastAttackTime + cfg.attackCooldown)
    ensures r.swung ==>
      && e.state == Attack && f.time >= e.lastAttackTime + cfg.attackCooldown && r.enemy.lastAttackTime == f.time
      && Engageable(f) && r.hit == AttackDamage(cfg, f.player.value)
      && r.playerHealth == Some(TakeDamage(f.player.value.health.value, r.hit.value).state)
    ensures !r.swung ==> r.enemy.lastAttackTime == e.lastAttackTime && r.hit.None?
    ensures Engageable(f) && !r.swung ==> r.playerHealth == f.player.value.health
  {
    if !Engageable(f) then Step(PatrolUpdate(cfg, e, f), if f.player.Some? then f.player.value.health else None, false, None)
    else
      var p := f.player.value;
      match e.state
      case Patrol =>
        var patrolled := PatrolUpdate(cfg, e, f);
        var seen := p.distance <= cfg.aggroRange && !PatrolThrows(cfg, e, f);
        Step(if seen then patrolled.(state := Chase) else patrolled, p.health, false, None)
      case Chase => Step(ChaseUpdate(cfg, e, p.distance), p.health, false, None)
      case Attack => AttackUpdate(cfg, e, p, f.time)
  }

  /** Runs `Update` over a sequence of frames; returns the final enemy and
      the times at which attacks were made. */
  function Run(cfg: EnemyConfig, e: Enemy, frames: seq<Frame>): (Enemy, seq<real>)
    decreases |frames|
  {
    if |frames| == 0 then (e, [])
    else
      var s := Update(cfg, e, frames[0]);
      var (last, times) := Run(cfg, s.enemy, frames[1..]);
      (last, if s.swung then [frames[0].time] + times else times)
  }

  /** Over any run, the first attack comes at least one cooldown after the
      last recorded attack, and successive attacks are at least one cooldown
      apart; the last attack time is what the enemy remembers. */
  lemma {:induction false} AttacksSpacedByCooldown(cfg: EnemyConfig, e: Enemy, frames: seq<Frame>)
    ensures var times := Run(cfg, e, frames).1;
      && (|times| > 0 ==> times[0] >= e.lastAttackTime + cfg.attackCooldown)
      && (forall k | 0 <= k < |times| - 1 :: times[k + 1] >= times[k] + cfg.attackCooldown)
      && (|times| > 0 ==> Run(cfg, e, frames).0.lastAttackTime == times[|times| - 1])
      && (|times| == 0 ==> Run(cfg, e, frames).0.lastAttackTime == e.lastAttackTime)
    decreases |frames|
  {
    if |frames| > 0 {
      var s := Update(cfg, e, frames[0]);
      AttacksSpacedByCooldown(cfg, s.enemy, frames[1..]);
    }
  }

  /** The patrol index stays valid over any run from a valid state. */
  lemma {:induction false} IndexStaysValid(cfg: EnemyConfig, e: Enemy, frames: seq<Frame>)
    requires IndexValid(cfg, e)
    ensures IndexValid(cfg, Run(cfg, e, frames).0)
    decreases |frames|
  {
    if |frames| > 0 {
      IndexStaysValid(cfg, Update(cfg, e, frames[0]).enemy, frames[1..]);
    }
  }
}

=== FILE: enemy_spawner.dfy ===
/** The wave spawner (`EnemySpawner`): after `BeginSpawning`, one enemy per
    `spawnInterval` at a randomly chosen spawn point until `totalToSpawn`
    have been spawned. The clock and the random index are parameters. */
module EnemySpawner {
  import opened Wrappers

  /** Inspector settings; `spawnPointCount` is the spawn point array's length
      (0 when it is null) and `nullPoints` the indices of its unassigned
      entries. */
  datatype SpawnerConfig = SpawnerConfig(
    hasPrefab: bool,
    spawnPointCount: nat,
    nullPoints: set<int>,
    totalToSpawn: int,
    spawnInterval: real,
    autoStart: bool)

  datatype Spawner = Spawner(spawnedCount: int, nextSpawnTime: real, spawning: bool)

  /** The fields' initial values. */
  const Initial := Spawner(0, 0.0, false)

  /** A frame: `Time.time` and the index the random generator would draw. */
  datatype Tick = Tick(time: real, pick: int)

  /** The step's outcome: the new state, whether a spawn was counted, and the
      spawn point used (None when no object could be instantiated). */
  datatype Step = Step(spawner: Spawner, counted: bool, point: Option<nat>)

  /** `BeginSpawning`: a no-op without a prefab or spawn points; otherwise the
      count restarts and the first spawn is one interval away. */
  function BeginSpawning(cfg: SpawnerConfig, s: Spawner, now: real): (r: Spawner)
    ensures !cfg.hasPrefab || cfg.spawnPointCount == 0 ==> r == s
    ensures cfg.hasPrefab && cfg.spawnPointCount > 0 ==>
      r.spawnedCount == 0 && r.spawning && r.nextSpawnTime == now + cfg.spawnInterval
  {
    if !cfg.hasPrefab || cfg.spawnPointCount == 0 then s
    else Spawner(0, now + cfg.spawnInterval, true)
  }

  /** `Start`: begins spawning when `autoStart` is set. */
  function Start(cfg: SpawnerConfig, now: real): (r: Spawner)
    ensures r.spawning <==> cfg.autoStart && cfg.hasPrefab && cfg.spawnPointCount > 0
    ensures r.spawnedCount == 0
  {
    if cfg.autoStart then BeginSpawning(cfg, Initial, now) else Initial
  }

  predicate PickValid(cfg: SpawnerConfig, t: Tick) {
    cfg.spawnPointCount > 0 ==> 0 <= t.pick < cfg.spawnPointCount
  }

  /** Whether `SpawnOne` throws this frame: it instantiates at an unassigned
      spawn point, whose position cannot be read. */
  predicate SpawnThrows(cfg: SpawnerConfig, t: Tick) {
    cfg.hasPrefab && cfg.spawnPointCount > 0 && t.pick in cfg.nullPoints
  }

  /** `Update`: idle when not spawning; stops once the total is reached;
      otherwise spawns at most once, when the scheduled time has come. A
      spawn at an unassigned point throws before the count and the schedule
      are updated, so it is retried on a later frame. */
  function Update(cfg: SpawnerConfig, s: Spawner, t: Tick): (r: Step)
    requires PickValid(cfg, t)
    ensures !s.spawning ==> r == Step(s, false, None)
    ensures s.spawning && s.spawnedCount >= cfg.totalToSpawn ==>
      r == Step(s.(spawning := false), false, None)
    ensures s.spawning && s.spawnedCount < cfg.totalToSpawn && SpawnThrows(cfg, t) ==> r == Step(s, false, None)
    ensures r.counted <==>
      s.spawning && s.spawnedCount < cfg.totalToSpawn && t.time >= s.nextSpawnTime && !SpawnThrows(cfg, t)
    ensures r.counted ==> r.spawner == Spawner(s.spawnedCount + 1, t.time + cfg.spawnInterval, true)
    ensures !r.counted ==> r.spawner.spawnedCount == s.spawnedCount && r.spawner.nextSpawnTime == s.nextSpawnTime
    ensures r.point.Some? ==> r.counted && r.point.value < cfg.spawnPointCount
    ensures r.counted && cfg.hasPrefab && cfg.spawnPointCount > 0 ==> r.point.Some?
  {
    if !s.spawning then Step(s, false, None)
    else if s.spawnedCount >= cfg.totalToSpawn then Step(s.(spawning := false), false, None)
    else if t.time >= s.nextSpawnTime && SpawnThrows(cfg, t) then Step(s, false, None)
    else if t.time >= s.nextSpawnTime then
      var point := if cfg.spawnPointCount == 0 || !cfg.hasPrefab then None else Some(t.pick as nat);
      Step(Spawner(s.spawnedCount + 1, t.time + cfg.spawnInterval, true), true, point)
    else Step(s, false, None)
  }

  /** How many enemies a round can spawn: the total, or none when it is
      negative. */
  function Quota(cfg: SpawnerConfig): nat {
    if cfg.totalToSpawn < 0 then 0 else cfg.totalToSpawn
  }

  /** The count stays between 0 and the quota. */
  predicate CountValid(cfg: SpawnerConfig, s: Spawner) {
    0 <= s.spawnedCount <= Quota(cfg)
  }

  /** Runs `Update` over a sequence of ticks; returns the final state and the
      times at which spawns were counted. */
  function Run(cfg: SpawnerConfig, s: Spawner, ticks: seq<Tick>): (Spawner, seq<real>)
    requires forall k | 0 <= k < |ticks| :: PickValid(cfg, ticks[k])
    decreases |ticks|
  {
    if |ticks| == 0 then (s, [])
    else
      var st := Update(cfg, s, ticks[0]);
      var (last, times) := Run(cfg, st.spawner, ticks[1..]);
      (last, if st.counted then [ticks[0].time] + times else times)
  }

  /** Once spawning has stopped, no later frame changes anything. */
  lemma {:induction false} StoppedStaysStopped(cfg: SpawnerConfig, s: Spawner, ticks: seq<Tick>)
    requires forall k | 0 <= k < |ticks| :: PickValid(cfg, ticks[k])
    requires !s.spawning
    ensures Run(cfg, s, ticks) == (s, [])
    decreases |ticks|
  {
    if |ticks| > 0 {
      StoppedStaysStopped(cfg, s, ticks[1..]);
    }
  }

  /** While every draw lands on an unassigned spawn point, a spawner with
      enemies still to spawn stays exactly where it is: nothing is counted
      and the schedule does not move. */
  lemma {:induction false} UnassignedPointsStallSpawner(cfg: SpawnerConfig, s: Spawner, ticks: seq<Tick>)
    requires forall k | 0 <= k < |ticks| :: PickValid(cfg, ticks[k]) && SpawnThrows(cfg, ticks[k])
    requires s.spawning && s.spawnedCount < cfg.totalToSpawn
    ensures Run(cfg, s, ticks) == (s, [])
    decreases |ticks|
  {
    if |ticks| > 0 {
      assert Update(cfg, s, ticks[0]) == Step(s, false, None);
      UnassignedPointsStallSpawner(cfg, s, ticks[1..]);
    }
  }

  /** Over any run: each counted spawn adds exactly one to the count, the
      count never passes the total, the first spawn is no earlier than the
      scheduled time and successive spawns are at least one interval apart. */
  lemma {:induction false} SpawnsCountedAndSpaced(cfg: SpawnerConfig, s: Spawner, ticks: seq<Tick>)
    requires forall k | 0 <= k < |ticks| :: PickValid(cfg, ticks[k])
    requires CountValid(cfg, s)
    ensures var (last, times) := Run(cfg, s, ticks);
      && last.spawnedCount == s.spawnedCount + |times|
      && CountValid(cfg, last)
      && (|times| > 0 ==> times[0] >= s.nextSpawnTime)
      && (forall k | 0 <= k < |times| - 1 :: times[k + 1] >= times[k] + cfg.spawnInterval)
    decreases |ticks|
  {
    if |ticks| > 0 {
      var st := Update(cfg, s, ticks[0]);
      SpawnsCountedAndSpaced(cfg, st.spawner, ticks[1..]);
      var times := Run(cfg, st.spawner, ticks[1..]).1;
      if st.counted && |times| > 0 {
        assert times[0] >= ticks[0].time + cfg.spawnInterval;
      }
    }
  }

  /** A round started by `BeginSpawning` spawns at most `totalToSpawn`
      enemies, however many frames follow. */
  lemma AtMostTotalSpawned(cfg: SpawnerConfig, s: Spawner, now: real, ticks: seq<Tick>)
    requires forall k | 0 <= k < |ticks| :: PickValid(cfg, ticks[k])
    requires cfg.hasPrefab && cfg.spawnPointCount > 0
    ensures |Run(cfg, BeginSpawning(cfg, s, now), ticks).1| <= Quota(cfg)
  {
    SpawnsCountedAndSpaced(cfg, BeginSpawning(cfg, s, now), ticks);
  }
}

=== FILE: engine_math.dfy ===
/** The few engine numeric helpers the core relies on, stated over `real`. */
module EngineMath {

  /** `Mathf.Clamp(value, min, max)`: the lower bound is checked first, so when
      `hi < lo` a value below `lo` still yields `lo` and any other value `hi`. */
  function Clamp(v: real, lo: real, hi: real): (r: real)
    ensures lo <= hi ==> lo <= r <= hi
    ensures lo <= v <= hi ==> r == v
    ensures v < lo ==> r == lo
    ensures lo <= v && hi < v ==> r == hi
  {
    if v < lo then lo else if v > hi then hi else v
  }

  /** A unit fraction: the draw behind one `Random.Range(float, float)` call. */
  predicate UnitFraction(t: real) {
    0.0 <= t <= 1.0
  }

  /** `Random.Range(lo, hi)` on floats, given the unit fraction `t` the
      generator drew: a linear interpolation between the two bounds. */
  function RandomRange(lo: real, hi: real, t: real): (r: real)
    requires UnitFraction(t)
    ensures lo <= hi ==> lo <= r <= hi
    ensures hi <= lo ==> hi <= r <= lo
    ensures t == 0.0 ==> r == lo
    ensures t == 1.0 ==> r == hi
  {
    var d := hi - lo;
    var p := d * t;
    ProductBounds(d, t, p);
    lo + p
  }

  /** A unit fraction `t` of `d` lies between 0 and `d`, with the endpoints
      at `t = 0` and `t = 1`. */
  lemma ProductBounds(d: real, t: real, p: real)
    requires UnitFraction(t) && p == d * t
    ensures d >= 0.0 ==> 0.0 <= p <= d
    ensures d <= 0.0 ==> d <= p <= 0.0
    ensures t == 0.0 ==> p == 0.0
    ensures t == 1.0 ==> p == d
  {
    var u := 1.0 - t;
    assert d - p == d * u;
    if d >= 0.0 {
      ProductNonNegative(d, t);
      ProductNonNegative(d, u);
    } else {
      ProductNonNegative(-d, t);
      ProductNonNegative(-d, u);
    }
  }

  lemma ProductNonNegative(a: real, b: real)
    requires 0.0 <= a && 0.0 <= b
    ensures 0.0 <= a * b
  {
  }

  function Max(a: real, b: real): real {
    if a < b then b else a
  }
}

=== FILE: grid.dfy ===
/** The order in which a doubly nested `for` loop visits a rectangle of cells:
    the outer index advances slowest. Both nested loops of the terrain code
    (the height buffer fill and the tile grid build) follow it. */
module Grid {

  /** One visited cell, as (outer loop index, inner loop index). */
  datatype Pair = Pair(outer: int, inner: int)

  /** One pass of the inner loop for outer index `o`. */
  function InnerPass(o: int, nInner: nat): (r: seq<Pair>)
    ensures |r| == nInner
    ensures forall i | 0 <= i < nInner :: r[i] == Pair(o, i)
  {
    seq(nInner, i => Pair(o, i))
  }

  /** Every (outer, inner) pair in loop order. */
  function RowMajor(nOuter: nat, nInner: nat): (r: seq<Pair>)
    ensures |r| == nOuter * nInner
  {
    if nOuter == 0 then []
    else
      assert (nOuter - 1) * nInner + nInner == nOuter * nInner;
      RowMajor(nOuter - 1, nInner) + InnerPass(nOuter - 1, nInner)
  }

  /** Step `k` of the loop visits a cell in range, and `k` is that cell's
      position `outer * nInner + inner`; so no cell is visited twice. */
  lemma {:induction false} RowMajorStep(nOuter: nat, nInner: nat, k: nat)
    requires k < |RowMajor(nOuter, nInner)|
    ensures 0 <= RowMajor(nOuter, nInner)[k].outer < nOuter
    ensures 0 <= RowMajor(nOuter, nInner)[k].inner < nInner
    ensures k == RowMajor(nOuter, nInner)[k].outer * nInner + RowMajor(nOuter, nInner)[k].inner
  {
    var prev := RowMajor(nOuter - 1, nInner);
    if k < |prev| {
      RowMajorStep(nOuter - 1, nInner, k);
    } else {
      assert RowMajor(nOuter, nInner)[k] == Pair(nOuter - 1, k - |prev|);
    }
  }

  /** Cell (o, i) is visited at step `o * nInner + i`. */
  lemma {:induction false} RowMajorCell(nOuter: nat, nInner: nat, o: nat, i: nat)
    requires o < nOuter && i < nInner
    ensures o * nInner + i < |RowMajor(nOuter, nInner)|
    ensures RowMajor(nOuter, nInner)[o * nInner + i] == Pair(o, i)
  {
    var prev := RowMajor(nOuter - 1, nInner);
    if o < nOuter - 1 {
      RowMajorCell(nOuter - 1, nInner, o, i);
    } else {
      assert o * nInner == |prev|;
    }
  }

  /** Every cell of the `nOuter` by `nInner` rectangle occurs in `r`. */
  ghost predicate Covers(r: seq<Pair>, nOuter: int, nInner: int) {
    forall o, i | 0 <= o < nOuter && 0 <= i < nInner :: Pair(o, i) in r
  }

  /** No cell occurs twice in `r`. */
  ghost predicate NoRepeats(r: seq<Pair>) {
    forall k1, k2 | 0 <= k1 < k2 < |r| :: r[k1] != r[k2]
  }

  /** The loop visits every cell of the rectangle, and none twice. */
  lemma RowMajorVisitsEachCellOnce(nOuter: nat, nInner: nat)
    ensures Covers(RowMajor(nOuter, nInner), nOuter, nInner)
    ensures NoRepeats(RowMajor(nOuter, nInner))
  {
    var r := RowMajor(nOuter, nInner);
    forall o, i | 0 <= o < nOuter && 0 <= i < nInner
      ensures Pair(o, i) in r
    {
      RowMajorCell(nOuter, nInner, o, i);
    }
    forall k1, k2 | 0 <= k1 < k2 < |r|
      ensures r[k1] != r[k2]
    {
      RowMajorStep(nOuter, nInner, k1);
      RowMajorStep(nOuter, nInner, k2);
    }
  }
}

=== FILE: grunt_enemy_ai.dfy ===
/** The wave grunt (`GruntEnemyAI`): heads for the goal, but turns on the
    player while the player is within aggro range, with a time-based attack
    cooldown; touching the goal damages it and, optionally, kills the
    grunt. */
module GruntEnemyAI {
  import opened Wrappers
  import opened Health

  datatype Destination = NoDestination | Goal | PlayerPosition

  datatype Agent = Agent(isStopped: bool, destination: Destination)

  /** Inspector settings; `hasGoal` says whether an object tagged Goal was
      found at start. */
  datatype GruntConfig = GruntConfig(
    aggroRange: real,
    attackRange: real,
    damageToPlayer: real,
    attackCooldown: real,
    damageToGoal: real,
    destroyOnHitGoal: bool,
    hasGoal: bool)

  datatype Grunt = Grunt(lastAttackTime: real, agent: Agent)

  /** The player in one frame: its distance and its health component. */
  datatype PlayerView = PlayerView(distance: real, health: Option<HealthState>)

  /** One frame: whether the agent component is enabled, the player (None
      when not found or gone), whether the goal found at start still exists
      (a destroyed goal compares equal to null), and `Time.time`. */
  datatype Frame = Frame(agentEnabled: bool, player: Option<PlayerView>, goalExists: bool, time: real)

  /** The goal test of `Update`: a goal was found at start and has not been
      destroyed since. */
  predicate GoalPresent(cfg: GruntConfig, f: Frame) {
    cfg.hasGoal && f.goalExists
  }

  /** The step's outcome: the new grunt, the player's health afterwards, and
      whether an attack was made. */
  datatype Step = Step(grunt: Grunt, playerHealth: Option<HealthState>, swung: bool)

  /** `Start`: head for the goal when there is one. */
  function Start(cfg: GruntConfig): (g: Grunt)
    ensures g.agent.destination == Goal <==> cfg.hasGoal
    ensures !g.agent.isStopped
  {
    Grunt(-999.0, Agent(false, if cfg.hasGoal then Goal else NoDestination))
  }

  /** The player branch is taken: a player with a health component within
      aggro range. Whether the player is dead is not consulted. */
  predicate PlayerInAggro(cfg: GruntConfig, f: Frame) {
    f.player.Some? && f.player.value.health.Some? && f.player.value.distance <= cfg.aggroRange
  }

  function PlayerHealth(f: Frame): Option<HealthState> {
    if f.player.Some? then f.player.value.health else None
  }

  /** `HandleChaseAndAttackPlayer`: chase while beyond attack range,
      otherwise stand and hit the player whenever the cooldown has
      elapsed. */
  function HandleChaseAndAttackPlayer(cfg: GruntConfig, g: Grunt, p: PlayerView, time: real): (r: Step)
    requires p.health.Some?
    ensures p.distance > cfg.attackRange ==>
      r.grunt.agent == Agent(false, PlayerPosition) && !r.swung && r.playerHealth == p.health
    ensures p.distance <= cfg.attackRange ==> r.grunt.agent.isStopped
    ensures r.swung <==> p.distance <= cfg.attackRange && time >= g.lastAttackTime + cfg.attackCooldown
    ensures r.swung ==>
      r.grunt.lastAttackTime == time && r.playerHealth == Some(TakeDamage(p.health.value, cfg.damageToPlayer).state)
    ensures !r.swung ==> r.grunt.lastAttackTime == g.lastAttackTime && r.playerHealth == p.health
  {
    if p.distance > cfg.attackRange then
      Step(g.(agent := Agent(false, PlayerPosition)), p.health, false)
    else
      var stopped := g.(agent := g.agent.(isStopped := true));
      if time >= g.lastAttackTime + cfg.attackCooldown then
        Step(stopped.(lastAttackTime := time), Some(TakeDamage(p.health.value, cfg.damageToPlayer).state), true)
      else Step(stopped, p.health, false)
  }

  /** `Update`: nothing while the agent is disabled; the player first when in
      aggro range; otherwise on to the goal while it exists, and with neither
      the agent is left as it was. */
  function Update(cfg: GruntConfig, g: Grunt, f: Frame): (r: Step)
    ensures !f.agentEnabled ==> r == Step(g, PlayerHealth(f), false)
    ensures f.agentEnabled && !PlayerInAggro(cfg, f) ==>
      && !r.swung && r.playerHealth == PlayerHealth(f) && r.grunt.lastAttackTime == g.lastAttackTime
      && r.grunt.agent == (if GoalPresent(cfg, f) then Agent(false, Goal) else g.agent)
    ensures f.agentEnabled && PlayerInAggro(cfg, f) ==>
      r.grunt.agent.destination != Goal || g.agent.destination == Goal
    ensures f.agentEnabled && PlayerInAggro(cfg, f) ==>
      r.grunt.agent == (if f.player.value.distance > cfg.attackRange then Agent(false, PlayerPosition)
                        else g.agent.(isStopped := true))
    ensures f.agentEnabled && PlayerInAggro(cfg, f) ==>
      (r.swung <==> f.player.value.distance <= cfg.attackRange && f.time >= g.lastAttackTime + cfg.attackCooldown)
    ensures r.swung ==>
      && f.agentEnabled && PlayerInAggro(cfg, f) && f.time >= g.lastAttackTime + cfg.attackCooldown && r.grunt.lastAttackTime == f.time
      && r.playerHealth == Some(TakeDamage(f.player.value.health.value, cfg.damageToPlayer).state)
    ensures !r.swung ==> r.playerHealth == PlayerHealth(f)
    ensures !r.swung ==> r.grunt.lastAttackTime == g.lastAttackTime
  {
    if !f.agentEnabled then Step(g, PlayerHealth(f), false)
    else if PlayerInAggro(cfg, f) then HandleChaseAndAttackPlayer(cfg, g, f.player.value, f.time)
    else if GoalPresent(cfg, f) then Step(g.(agent := Agent(false, Goal)), PlayerHealth(f), false)
    else Step(g, PlayerHealth(f), false)
  }

  /** A dead player that stays in the scene within aggro range still holds
      the grunt: it does not head for the goal, and the hits it lands change
      nothing. */
  lemma DeadPlayerStillHoldsGrunt(cfg: GruntConfig, g: Grunt, f: Frame)
    requires f.agentEnabled && PlayerInAggro(cfg, f) && f.player.value.health.value.isDead
    requires g.agent.destination != Goal
    ensures Update(cfg, g, f).grunt.agent.destination != Goal
    ensures Update(cfg, g, f).playerHealth == f.player.value.health
  {
  }

  /** Runs `Update` over a sequence of frames; returns the final grunt and
      the times at which it attacked the player. */
  function Run(cfg: GruntConfig, g: Grunt, frames: seq<Frame>): (Grunt, seq<real>)
    decreases |frames|
  {
    if |frames| == 0 then (g, [])
    else
      var s := Update(cfg, g, frames[0]);
      var (last, times) := Run(cfg, s.grunt, frames[1..]);
      (last, if s.swung then [frames[0].time] + times else times)
  }

  /** Successive attacks on the player are at least one cooldown apart. */
  lemma {:induction false} AttacksSpacedByCooldown(cfg: GruntConfig, g: Grunt, frames: seq<Frame>)
    ensures var times := Run(cfg, g, frames).1;
      && (|times| > 0 ==> times[0] >= g.lastAttackTime + cfg.attackCooldown)
      && (forall k | 0 <= k < |times| - 1 :: times[k + 1] >= times[k] + cfg.attackCooldown)
      && (|times| > 0 ==> Run(cfg, g, frames).0.lastAttackTime == times[|times| - 1])
      && (|times| == 0 ==> Run(cfg, g, frames).0.lastAttackTime == g.lastAttackTime)
    decreases |frames|
  {
    if |frames| > 0 {
      AttacksSpacedByCooldown(cfg, Update(cfg, g, frames[0]).grunt, frames[1..]);
    }
  }

  /** Once the goal is gone, frames without a player in aggro range leave
      the grunt exactly as it was: it keeps its last destination and stopped
      flag. */
  lemma {:induction false} GoneGoalLeavesGruntAlone(cfg: GruntConfig, g: Grunt, frames: seq<Frame>)
    requires forall k | 0 <= k < |frames| :: !GoalPresent(cfg, frames[k]) && !PlayerInAggro(cfg, frames[k])
    ensures Run(cfg, g, frames) == (g, [])
    decreases |frames|
  {
    if |frames| > 0 {
      assert Update(cfg, g, frames[0]).grunt == g;
      GoneGoalLeavesGruntAlone(cfg, g, frames[1..]);
    }
  }

  /** The outcome of touching a trigger: the goal's health, the grunt's own
      health, and whether the grunt was destroyed outright. */
  datatype Contact = Contact(goalHealth: Option<HealthState>, ownHealth: Option<HealthState>, destroyed: bool)

  /** `OnTriggerEnter`: only the goal matters; it takes `damageToGoal`, and
      with `destroyOnHitGoal` the grunt takes 9999 damage itself, or is
      destroyed when it has no health component. */
  function OnTriggerEnter(cfg: GruntConfig, otherIsGoal: bool, goalHealth: Option<HealthState>, ownHealth: Option<HealthState>): (r: Contact)
    ensures !otherIsGoal ==> r == Contact(goalHealth, ownHealth, false)
    ensures otherIsGoal ==>
      r.goalHealth == (if goalHealth.Some? then Some(TakeDamage(goalHealth.value, cfg.damageToGoal).state) else None)
    ensures r.destroyed <==> otherIsGoal && cfg.destroyOnHitGoal && ownHealth.None?
    ensures otherIsGoal && cfg.destroyOnHitGoal && ownHealth.Some? ==>
      r.ownHealth == Some(TakeDamage(ownHealth.value, 9999.0).state)
    ensures !(otherIsGoal && cfg.destroyOnHitGoal) ==> r.ownHealth == ownHealth
  {
    if !otherIsGoal then Contact(goalHealth, ownHealth, false)
    else
      var goal' := match goalHealth { case Some(h) => Some(TakeDamage(h, cfg.damageToGoal).state) case None => None };
      if !cfg.destroyOnHitGoal then Contact(goal', ownHealth, false)
      else match ownHealth
        case Some(h) => Contact(goal', Some(TakeDamage(h, 9999.0).state), false)
        case None => Contact(goal', None, true)
  }

  /** A grunt with a valid health of at most 9999 that reaches the goal with
      `destroyOnHitGoal` set ends up dead. */
  lemma HittingGoalKillsGrunt(cfg: GruntConfig, goalHealth: Option<HealthState>, own: HealthState)
    requires cfg.destroyOnHitGoal && Valid(own) && own.current <= 9999.0
    ensures OnTriggerEnter(cfg, true, goalHealth, Some(own)).ownHealth.value.isDead
  {
  }
}

=== FILE: health.dfy ===
/** The health component (`Health`): a clamped hit-point value with a sticky
    death flag that only a reset clears. */
module Health {
  import opened Wrappers
  import opened EngineMath

  /** What happens to the game object on death: destroyed, deactivated, or
      left in the scene. */
  datatype DeathEffect = Stays | Destroyed | Deactivated

  datatype HealthState = HealthState(
    maxHealth: real,
    current: real,
    isDead: bool,
    destroyOnDeath: bool,
    disableOnDeath: bool)

  /** The result of one call: the new state, whether the health-changed
      event was raised, whether the death event was raised, and the death
      effect applied. */
  datatype Outcome = Outcome(state: HealthState, reported: bool, died: bool, effect: DeathEffect)

  predicate Valid(h: HealthState) {
    0.0 <= h.current <= h.maxHealth
  }

  /** The value the health-changed event carries; None when the maximum is
      zero and the float division yields no finite number. */
  function Fraction(h: HealthState): Option<real> {
    if h.maxHealth == 0.0 then None else Some(h.current / h.maxHealth)
  }

  /** For a valid state with positive maximum, the reported fraction lies in
      [0, 1]. */
  lemma FractionInUnitRange(h: HealthState)
    requires Valid(h) && h.maxHealth > 0.0
    ensures Fraction(h).Some? && 0.0 <= Fraction(h).value <= 1.0
  {
    var f := h.current / h.maxHealth;
    assert f * h.maxHealth == h.current;
  }

  /** The death effect: destroying takes priority over deactivating. */
  function DeathEffectOf(h: HealthState): (e: DeathEffect)
    ensures e == Destroyed <==> h.destroyOnDeath
    ensures e == Deactivated <==> !h.destroyOnDeath && h.disableOnDeath
    ensures e == Stays <==> !h.destroyOnDeath && !h.disableOnDeath
  {
    if h.destroyOnDeath then Destroyed
    else if h.disableOnDeath then Deactivated
    else Stays
  }

  /** `ResetHealth`: alive again, the maximum replaced by the starting value
      when one is configured, and full health. */
  function ResetHealth(h: HealthState, startingHealth: Option<real>): (r: Outcome)
    ensures !r.state.isDead && r.reported && !r.died && r.effect == Stays
    ensures r.state.maxHealth == (if startingHealth.Some? then startingHealth.value else h.maxHealth)
    ensures r.state.current == r.state.maxHealth
    ensures Valid(r.state) <==> r.state.maxHealth >= 0.0
    ensures r.state.destroyOnDeath == h.destroyOnDeath && r.state.disableOnDeath == h.disableOnDeath
  {
    var m := startingHealth.GetOr(h.maxHealth);
    Outcome(h.(isDead := false, maxHealth := m, current := m), true, false, Stays)
  }

  /** `TakeDamage`: nothing at all once dead; otherwise the health drops by
      `amount`, clamped into [0, max], and the object dies when it reaches
      zero. */
  function TakeDamage(h: HealthState, amount: real): (r: Outcome)
    ensures h.isDead ==> r == Outcome(h, false, false, Stays)
    ensures !h.isDead ==> r.reported && r.state.maxHealth == h.maxHealth
    ensures !h.isDead ==> r.state.current == Clamp(h.current - amount, 0.0, h.maxHealth)
    ensures !h.isDead ==> (r.died <==> r.state.current <= 0.0)
    ensures !h.isDead && h.maxHealth >= 0.0 ==> (r.died <==> r.state.current == 0.0)
    ensures r.state.isDead <==> h.isDead || r.died
    ensures r.effect == (if r.died then DeathEffectOf(h) else Stays)
    ensures Valid(h) ==> Valid(r.state)
    ensures Valid(h) && amount >= 0.0 ==> r.state.current <= h.current
  {
    if h.isDead then Outcome(h, false, false, Stays)
    else
      var c := Clamp(h.current - amount, 0.0, h.maxHealth);
      var h' := h.(current := c);
      if c <= 0.0 then Outcome(h'.(isDead := true), true, true, DeathEffectOf(h))
      else Outcome(h', true, false, Stays)
  }

  /** `Heal`: nothing once dead; otherwise the health rises by `amount`,
      clamped into [0, max]. It never kills and never revives. */
  function Heal(h: HealthState, amount: real): (r: Outcome)
    ensures h.isDead ==> r == Outcome(h, false, false, Stays)
    ensures !r.died && r.effect == Stays && r.state.isDead == h.isDead
    ensures !h.isDead ==> r.reported && r.state.current == Clamp(h.current + amount, 0.0, h.maxHealth)
    ensures h.maxHealth >= 0.0 && !h.isDead ==> r.state.current <= h.maxHealth
    ensures Valid(h) ==> Valid(r.state)
  {
    if h.isDead then Outcome(h, false, false, Stays)
    else Outcome(h.(current := Clamp(h.current + amount, 0.0, h.maxHealth)), true, false, Stays)
  }

  /** The public operations, for reasoning about sequences of calls. */
  datatype HealthOp = Reset(startingHealth: Option<real>) | Damage(amount: real) | HealBy(amount: real)

  function Apply(h: HealthState, op: HealthOp): HealthState {
    match op
    case Reset(s) => ResetHealth(h, s).state
    case Damage(a) => TakeDamage(h, a).state
    case HealBy(a) => Heal(h, a).state
  }

  function ApplyAll(h: HealthState, ops: seq<HealthOp>): HealthState
    decreases |ops|
  {
    if |ops| == 0 then h else ApplyAll(Apply(h, ops[0]), ops[1..])
  }

  /** Once dead, any run of calls without a reset leaves the state exactly as
      it was. */
  lemma {:induction false} DeadStaysDeadWithoutReset(h: HealthState, ops: seq<HealthOp>)
    requires h.isDead
    requires forall k | 0 <= k < |ops| :: !ops[k].Reset?
    ensures ApplyAll(h, ops) == h
    decreases |ops|
  {
    if |ops| > 0 {
      assert Apply(h, ops[0]) == h;
      DeadStaysDeadWithoutReset(h, ops[1..]);
    }
  }

  /** The only way from dead to alive is a reset somewhere in the run. */
  lemma {:induction false} OnlyResetRevives(h: HealthState, ops: seq<HealthOp>)
    requires h.isDead && !ApplyAll(h, ops).isDead
    ensures exists k | 0 <= k < |ops| :: ops[k].Reset?
  {
    if forall k | 0 <= k < |ops| :: !ops[k].Reset? {
      DeadStaysDeadWithoutReset(h, ops);
    }
  }

  /** Every call keeps a valid state valid, provided every configured
      starting value is non-negative. */
  lemma {:induction false} ValidityPreserved(h: HealthState, ops: seq<HealthOp>)
    requires Valid(h)
    requires forall k | 0 <= k < |ops| :: ops[k].Reset? && ops[k].startingHealth.Some? ==> ops[k].startingHealth.value >= 0.0
    ensures Valid(ApplyAll(h, ops))
    decreases |ops|
  {
    if |ops| > 0 {
      var h' := Apply(h, ops[0]);
      assert Valid(h');
      ValidityPreserved(h', ops[1..]);
    }
  }
}

=== FILE: terrain_chunk.dfy ===
/** One terrain tile's height generation (`SeamlessTerrainChunk`): each
    heightmap sample is mapped to its absolute world position and the noise
    primitive is evaluated there, so that tiles placed edge to edge agree on
    their shared border. */
module TerrainChunk {
  import opened Grid

  datatype Vec2 = Vec2(x: real, y: real)
  datatype Vec3 = Vec3(x: real, y: real, z: real)

  /** The coherent-noise primitive (`Mathf.PerlinNoise`), left uninterpreted. */
  type Noise = (real, real) -> real

  /** A height buffer indexed `[row][column]`, that is `[z][x]`. */
  type Heightmap = seq<seq<real>>

  /** What the grid manager hands a tile: its bottom-left corner in world
      units (`worldOffset.y` is the world z coordinate), its edge length,
      the noise frequency, the vertical extent and the world seed. */
  datatype ChunkParams = ChunkParams(
    worldOffset: Vec2,
    tileSize: real,
    noiseScale: real,
    heightScale: real,
    seed: int)

  /** The tile's terrain data after generation: its physical size and the
      height samples written into it. */
  datatype ChunkData = ChunkData(size: Vec3, heights: Heightmap)

  predicate IsSquare(h: Heightmap, res: int) {
    |h| == res && forall z | 0 <= z < |h| :: |h[z]| == res
  }

  /** World coordinate of sample index `i` along one axis of a tile whose
      edge starts at `offset`: the first index lies on the tile's near edge,
      the last on its far edge, and all others in between. */
  function SampleCoord(offset: real, i: int, res: int, tileSize: real): (w: real)
    requires res >= 2
    ensures i == 0 ==> w == offset
    ensures i == res - 1 ==> w == offset + tileSize
    ensures 0 <= i < res && 0.0 <= tileSize ==> offset <= w <= offset + tileSize
  {
    var n := (i as real) / ((res - 1) as real);
    assert 0 <= i < res ==> 0.0 <= n <= 1.0;
    assert 0 <= i < res && 0.0 <= tileSize ==> n * tileSize <= tileSize by {
      if 0 <= i < res && 0.0 <= tileSize {
        assert tileSize - n * tileSize == (1.0 - n) * tileSize;
      }
    }
    offset + n * tileSize
  }

  /** World-space (x, z) position of sample column `x`, row `z`. */
  function WorldPoint(p: ChunkParams, res: int, x: int, z: int): Vec2
    requires res >= 2
  {
    Vec2(SampleCoord(p.worldOffset.x, x, res, p.tileSize),
         SampleCoord(p.worldOffset.y, z, res, p.tileSize))
  }

  /** The noise coordinate for one world coordinate: the seed shifts the
      absolute position before scaling, it is not a per-tile phase. */
  function NoiseInput(world: real, seed: int, noiseScale: real): real {
    (world + seed as real) * noiseScale
  }

  /** The height the terrain has at world point `w`, independent of the tile
      that samples it. */
  function HeightAtWorld(noise: Noise, w: Vec2, noiseScale: real, seed: int): real {
    noise(NoiseInput(w.x, seed, noiseScale), NoiseInput(w.y, seed, noiseScale))
  }

  /** The sample stored for column `x`, row `z` of the tile. */
  function Sample(noise: Noise, p: ChunkParams, res: int, x: int, z: int): real
    requires res >= 2
  {
    HeightAtWorld(noise, WorldPoint(p, res, x, z), p.noiseScale, p.seed)
  }

  /** The whole `res` by `res` buffer the tile holds after generation. */
  function Heights(noise: Noise, p: ChunkParams, res: int): (h: Heightmap)
    requires res >= 2
    ensures IsSquare(h, res)
  {
    seq(res, z => seq(res, x => Sample(noise, p, res, x, z)))
  }

  /** One pass of the inner loop of `GenerateHeights`: row `z`, columns in
      increasing x. */
  method FillRow(noise: Noise, p: ChunkParams, res: int, z: int)
    returns (row: seq<real>, writes: seq<Pair>)
    requires res >= 2 && 0 <= z < res
    ensures row == Heights(noise, p, res)[z]
    ensures writes == InnerPass(z, res)
  {
    row := [];
    writes := [];
    var x := 0;
    while x < res
      invariant 0 <= x <= res
      invariant |row| == x
      invariant forall j | 0 <= j < x :: row[j] == Sample(noise, p, res, j, z)
      invariant writes == InnerPass(z, x)
    {
      var nx := (x as real) / ((res - 1) as real);
      var nz := (z as real) / ((res - 1) as real);
      var worldX := p.worldOffset.x + nx * p.tileSize;
      var worldZ := p.worldOffset.y + nz * p.tileSize;
      var h := noise(NoiseInput(worldX, p.seed, p.noiseScale), NoiseInput(worldZ, p.seed, p.noiseScale));
      assert WorldPoint(p, res, x, z) == Vec2(worldX, worldZ);
      row := row + [h];
      writes := writes + [Pair(z, x)];
      x := x + 1;
    }
  }

  /** `GenerateHeights`: fills the buffer row by row (z outer, x inner).
      `writes` logs each cell written as Pair(z, x), in order. */
  method GenerateHeights(noise: Noise, p: ChunkParams, res: int)
    returns (data: ChunkData, writes: seq<Pair>)
    requires res >= 2
    ensures data.size == Vec3(p.tileSize, p.heightScale, p.tileSize)
    ensures IsSquare(data.heights, res)
    ensures forall z, x | 0 <= z < res && 0 <= x < res ::
      data.heights[z][x] == HeightAtWorld(noise, WorldPoint(p, res, x, z), p.noiseScale, p.seed)
    ensures data.heights == Heights(noise, p, res)
    ensures writes == RowMajor(res, res)
    ensures Covers(writes, res, res) && NoRepeats(writes)
  {
    var rows: Heightmap := [];
    writes := [];
    var z := 0;
    while z < res
      invariant 0 <= z <= res
      invariant |rows| == z && forall j | 0 <= j < z :: rows[j] == Heights(noise, p, res)[j]
      invariant writes == RowMajor(z, res)
    {
      var row, rowWrites := FillRow(noise, p, res, z);
      rows := rows + [row];
      writes := writes + rowWrites;
      z := z + 1;
    }
    data := ChunkData(Vec3(p.tileSize, p.heightScale, p.tileSize), rows);
    RowMajorVisitsEachCellOnce(res, res);
  }

  /** Two tiles with the same sampling parameters whose offsets differ by one
      tile along x: the last column of the first equals the first column of
      the second. */
  lemma SeamAlongX(noise: Noise, p: ChunkParams, q: ChunkParams, res: int)
    requires res >= 2
    requires q.worldOffset == Vec2(p.worldOffset.x + p.tileSize, p.worldOffset.y)
    requires q.tileSize == p.tileSize && q.noiseScale == p.noiseScale && q.seed == p.seed
    ensures forall z | 0 <= z < res :: Heights(noise, p, res)[z][res - 1] == Heights(noise, q, res)[z][0]
  {
  }

  /** The same along z: the last row of a tile equals the first row of the
      tile one tile further along z. */
  lemma SeamAlongZ(noise: Noise, p: ChunkParams, q: ChunkParams, res: int)
    requires res >= 2
    requires q.worldOffset == Vec2(p.worldOffset.x, p.worldOffset.y + p.tileSize)
    requires q.tileSize == p.tileSize && q.noiseScale == p.noiseScale && q.seed == p.seed
    ensures forall x | 0 <= x < res :: Heights(noise, p, res)[res - 1][x] == Heights(noise, q, res)[0][x]
  {
  }

  /** Whenever the noise primitive stays in [0, 1], so does every stored
      height. */
  lemma HeightsInUnitRange(noise: Noise, p: ChunkParams, res: int)
    requires res >= 2
    requires forall a, b :: 0.0 <= noise(a, b) <= 1.0
    ensures forall z, x | 0 <= z < res && 0 <= x < res :: 0.0 <= Heights(noise, p, res)[z][x] <= 1.0
  {
  }
}

=== FILE: terrain_world.dfy ===
/** The seamless world manager (`SeamlessWorldTerrainManager`), both the
    earlier version (grid build and neighbour wiring only) and the later one
    (which adds the ground-height query and the spawning of the player,
    decorations and enemies once the grid is built). */
module TerrainWorld {
  import opened Wrappers
  import opened EngineMath
  import opened Grid
  import opened TerrainChunk

  /** Grid coordinates of a tile: `x` east-west, `z` north-south. */
  datatype Coord = Coord(x: int, z: int)

  /** A tile's links, in the engine's order left, top, right, bottom; None
      stands for a null link on the world border. */
  datatype Neighbors = Neighbors(left: Option<Coord>, top: Option<Coord>, right: Option<Coord>, bottom: Option<Coord>)

  /** The tile prefab, reduced to whether it carries the height-generation
      component. */
  datatype TilePrefab = TilePrefab(hasChunk: bool)

  /** One instantiated terrain tile. `chunk` holds the arguments its height
      generation received and `heights` what it wrote; both are None when the
      prefab has no generation component (the cloned template data then stays
      as it was, which is not modelled). */
  datatype Tile = Tile(
    coord: Coord,
    position: Vec3,
    size: Vec3,
    resolution: int,
    chunk: Option<ChunkParams>,
    heights: Option<Heightmap>,
    neighbors: Neighbors)

  /** The manager's inspector settings for the grid. */
  datatype Config = Config(
    tilePrefab: Option<TilePrefab>,
    tilesX: int,
    tilesZ: int,
    tileSize: real,
    heightmapResolution: int,
    noiseScale: real,
    heightScale: real,
    worldSeed: int)

  type PrefabId = nat

  /** The later version's spawning settings. A null prefab array is the same
      as an empty one; a null entry of an array is None. */
  datatype SpawnConfig = SpawnConfig(
    hasNavMeshSurface: bool,
    hasPlayerPrefab: bool,
    enemyPrefab: Option<PrefabId>,
    enemyCount: int,
    treePrefabs: seq<Option<PrefabId>>,
    rockPrefabs: seq<Option<PrefabId>>,
    bushPrefabs: seq<Option<PrefabId>>,
    treeCount: int,
    rockCount: int,
    bushCount: int,
    spawnMargin: real)

  /** Objects parented to the manager; all are destroyed on regeneration. */
  datatype Child =
    | TileObject(coord: Coord)
    | Decoration(prefab: PrefabId, position: Vec3, yaw: real, scale: real)
    | EnemyObject(prefab: PrefabId, position: Vec3)

  /** What the manager owns or has produced. The player is instantiated
      without a parent, so players survive regeneration. */
  datatype Scene = Scene(children: seq<Child>, tiles: seq<seq<Tile>>, players: seq<Vec3>, navMeshBuilds: nat)

  datatype GenStatus = Generated | MissingPrefab | NegativeDimensions

  /** The engine's `Terrain.SampleHeight`: ground height of a tile at a world
      position, relative to the tile's own position. Left uninterpreted. */
  type Sampler = (Tile, Vec3) -> real

  /** The random values one `ScatterPrefabs` iteration draws: the prefab
      index, then unit fractions for x, z, yaw and scale. */
  datatype ScatterDraw = ScatterDraw(pick: int, fx: real, fz: real, fyaw: real, fscale: real)

  /** The random values one `SpawnEnemies` iteration draws. */
  datatype EnemyDraw = EnemyDraw(fx: real, fz: real)

  datatype Draws = Draws(trees: seq<ScatterDraw>, rocks: seq<ScatterDraw>, bushes: seq<ScatterDraw>, enemies: seq<EnemyDraw>)

  // ---------------------------------------------------------------- grid

  /** An `nx` by `nz` array, indexed `[x][z]`. */
  predicate Shaped(tiles: seq<seq<Tile>>, nx: int, nz: int) {
    0 <= nz && |tiles| == nx && forall x | 0 <= x < |tiles| :: |tiles[x]| == nz
  }

  predicate InGrid(c: Coord, nx: int, nz: int) {
    0 <= c.x < nx && 0 <= c.z < nz
  }

  /** The links `SetupNeighbors` gives tile (x, z): a link is null exactly on
      the corresponding border and otherwise names the adjacent cell. */
  function NeighborsOf(x: int, z: int, nx: int, nz: int): (n: Neighbors)
    ensures n.left.None? <==> x <= 0
    ensures n.right.None? <==> x >= nx - 1
    ensures n.bottom.None? <==> z <= 0
    ensures n.top.None? <==> z >= nz - 1
    ensures InGrid(Coord(x, z), nx, nz) ==>
      forall c | c in Links(n) :: InGrid(c, nx, nz)
  {
    Neighbors(
      if x > 0 then Some(Coord(x - 1, z)) else None,
      if z < nz - 1 then Some(Coord(x, z + 1)) else None,
      if x < nx - 1 then Some(Coord(x + 1, z)) else None,
      if z > 0 then Some(Coord(x, z - 1)) else None)
  }

  /** The non-null links of a tile. */
  function Links(n: Neighbors): set<Coord> {
    (if n.left.Some? then {n.left.value} else {}) +
    (if n.top.Some? then {n.top.value} else {}) +
    (if n.right.Some? then {n.right.value} else {}) +
    (if n.bottom.Some? then {n.bottom.value} else {})
  }

  /** Grid adjacency, independently of the wiring: one step along one axis. */
  predicate Adjacent(a: Coord, b: Coord) {
    (a.z == b.z && (a.x - b.x == 1 || b.x - a.x == 1)) ||
    (a.x == b.x && (a.z - b.z == 1 || b.z - a.z == 1))
  }

  /** Within the grid, the links of a tile are exactly its adjacent cells. */
  lemma LinksAreAdjacentCells(a: Coord, b: Coord, nx: int, nz: int)
    requires InGrid(a, nx, nz) && InGrid(b, nx, nz)
    ensures b in Links(NeighborsOf(a.x, a.z, nx, nz)) <==> Adjacent(a, b)
  {
  }

  /** The wiring is symmetric: b is a's right neighbour iff a is b's left
      neighbour, and b is a's top neighbour iff a is b's bottom neighbour. */
  lemma NeighborsSymmetric(a: Coord, b: Coord, nx: int, nz: int)
    requires InGrid(a, nx, nz) && InGrid(b, nx, nz)
    ensures NeighborsOf(a.x, a.z, nx, nz).right == Some(b) <==> NeighborsOf(b.x, b.z, nx, nz).left == Some(a)
    ensures NeighborsOf(a.x, a.z, nx, nz).top == Some(b) <==> NeighborsOf(b.x, b.z, nx, nz).bottom == Some(a)
  {
  }

  /** The chunk arguments tile (x, z) receives: its own corner as the noise
      offset, and the shared global parameters. */
  function TileChunkParams(cfg: Config, x: int, z: int): ChunkParams {
    ChunkParams(Vec2(x as real * cfg.tileSize, z as real * cfg.tileSize),
                cfg.tileSize, cfg.noiseScale, cfg.heightScale, cfg.worldSeed)
  }

  /** Tile (x, z) as the grid loop creates it, before neighbour wiring. */
  function MakeTile(cfg: Config, noise: Noise, x: int, z: int): Tile
    requires cfg.tilePrefab.Some? && cfg.heightmapResolution >= 2
  {
    var p := TileChunkParams(cfg, x, z);
    Tile(Coord(x, z),
         Vec3(x as real * cfg.tileSize, 0.0, z as real * cfg.tileSize),
         Vec3(cfg.tileSize, cfg.heightScale, cfg.tileSize),
         cfg.heightmapResolution,
         if cfg.tilePrefab.value.hasChunk then Some(p) else None,
         if cfg.tilePrefab.value.hasChunk then Some(Heights(noise, p, cfg.heightmapResolution)) else None,
         Neighbors(None, None, None, None))
  }

  /** What every tile of a successfully generated grid satisfies. */
  ghost predicate TileInvariant(t: Tile, cfg: Config, noise: Noise, x: int, z: int)
    requires cfg.tilePrefab.Some? && cfg.heightmapResolution >= 2
  {
    && t.coord == Coord(x, z)
    && t.position == Vec3(x as real * cfg.tileSize, 0.0, z as real * cfg.tileSize)
    && t.size == Vec3(cfg.tileSize, cfg.heightScale, cfg.tileSize)
    && t.resolution == cfg.heightmapResolution
    && (cfg.tilePrefab.value.hasChunk ==>
          && t.chunk.Some?
          && t.chunk.value.worldOffset == Vec2(t.position.x, t.position.z)
          && t.chunk.value.tileSize == cfg.tileSize
          && t.chunk.value.noiseScale == cfg.noiseScale
          && t.chunk.value.heightScale == cfg.heightScale
          && t.chunk.value.seed == cfg.worldSeed
          && t.heights == Some(Heights(noise, t.chunk.value, cfg.heightmapResolution)))
    && (!cfg.tilePrefab.value.hasChunk ==> t.chunk.None? && t.heights.None?)
    && t.neighbors == NeighborsOf(x, z, cfg.tilesX, cfg.tilesZ)
  }

  /** A fully populated, rectangular grid, every tile placed and wired. */
  ghost predicate GridInvariant(tiles: seq<seq<Tile>>, cfg: Config, noise: Noise)
    requires cfg.tilePrefab.Some? && cfg.heightmapResolution >= 2
  {
    && Shaped(tiles, cfg.tilesX, cfg.tilesZ)
    && forall x, z | 0 <= x < cfg.tilesX && 0 <= z < cfg.tilesZ ::
         TileInvariant(tiles[x][z], cfg, noise, x, z)
  }

  /** `SetupNeighbors`: wires every tile of a rectangular grid. */
  function SetupNeighbors(tiles: seq<seq<Tile>>, nx: int, nz: int): (r: seq<seq<Tile>>)
    requires Shaped(tiles, nx, nz)
    ensures Shaped(r, nx, nz)
    ensures forall x, z | 0 <= x < nx && 0 <= z < nz ::
      r[x][z] == tiles[x][z].(neighbors := NeighborsOf(x, z, nx, nz))
  {
    seq(nx, x requires 0 <= x < nx => seq(nz, z requires 0 <= z < nz => tiles[x][z].(neighbors := NeighborsOf(x, z, nx, nz))))
  }

  /** The inner loop of the grid build: column x, tiles in increasing z. */
  method BuildColumn(cfg: Config, noise: Noise, x: int) returns (column: seq<Tile>, created: seq<Pair>)
    requires cfg.tilePrefab.Some? && cfg.heightmapResolution >= 2 && cfg.tilesZ >= 0
    ensures |column| == cfg.tilesZ
    ensures forall z | 0 <= z < cfg.tilesZ :: column[z] == MakeTile(cfg, noise, x, z)
    ensures created == InnerPass(x, cfg.tilesZ)
  {
    column := [];
    created := [];
    var z := 0;
    while z < cfg.tilesZ
      invariant 0 <= z <= cfg.tilesZ
      invariant |column| == z && forall j | 0 <= j < z :: column[j] == MakeTile(cfg, noise, x, j)
      invariant created == InnerPass(x, z)
    {
      column := column + [MakeTile(cfg, noise, x, z)];
      created := created + [Pair(x, z)];
      z := z + 1;
    }
  }

  /** The grid loop of `GenerateWorld`: x outer, z inner. `created` lists the
      tiles in instantiation order as Pair(x, z). */
  method BuildTiles(cfg: Config, noise: Noise) returns (tiles: seq<seq<Tile>>, created: seq<Pair>)
    requires cfg.tilePrefab.Some? && cfg.heightmapResolution >= 2
    requires cfg.tilesX >= 0 && cfg.tilesZ >= 0
    ensures Shaped(tiles, cfg.tilesX, cfg.tilesZ)
    ensures forall x, z | 0 <= x < cfg.tilesX && 0 <= z < cfg.tilesZ :: tiles[x][z] == MakeTile(cfg, noise, x, z)
    ensures created == RowMajor(cfg.tilesX, cfg.tilesZ)
  {
    tiles := [];
    created := [];
    var x := 0;
    while x < cfg.tilesX
      invariant 0 <= x <= cfg.tilesX
      invariant Shaped(tiles, x, cfg.tilesZ)
      invariant forall i, z | 0 <= i < x && 0 <= z < cfg.tilesZ :: tiles[i][z] == MakeTile(cfg, noise, i, z)
      invariant created == RowMajor(x, cfg.tilesZ)
    {
      var column, columnCreated := BuildColumn(cfg, noise, x);
      tiles := tiles + [column];
      created := created + columnCreated;
      x := x + 1;
    }
  }

  /** The tile objects of an `nx` by `nz` grid, in instantiation order. */
  function TileChildren(nx: nat, nz: nat): seq<Child> {
    var created := RowMajor(nx, nz);
    seq(|created|, k requires 0 <= k < |created| => TileObject(Coord(created[k].outer, created[k].inner)))
  }

  /** Tile `(x, z)` is instantiated as child number `x * nz + z`. */
  lemma TileChildPosition(nx: nat, nz: nat, x: nat, z: nat)
    requires x < nx && z < nz
    ensures x * nz + z < |TileChildren(nx, nz)| && TileChildren(nx, nz)[x * nz + z] == TileObject(Coord(x, z))
  {
    RowMajorCell(nx, nz, x, z);
  }

  /** The tile objects are exactly the grid's cells: `nx * nz` of them, each
      inside the grid, every cell present, none twice. */
  lemma TileChildrenExact(nx: nat, nz: nat)
    ensures |TileChildren(nx, nz)| == nx * nz
    ensures forall k | 0 <= k < |TileChildren(nx, nz)| ::
      TileChildren(nx, nz)[k].TileObject? && InGrid(TileChildren(nx, nz)[k].coord, nx, nz)
    ensures forall x, z | 0 <= x < nx && 0 <= z < nz :: TileObject(Coord(x, z)) in TileChildren(nx, nz)
    ensures forall k1, k2 | 0 <= k1 < k2 < |TileChildren(nx, nz)| :: TileChildren(nx, nz)[k1] != TileChildren(nx, nz)[k2]
  {
    var created := RowMajor(nx, nz);
    var children := TileChildren(nx, nz);
    RowMajorVisitsEachCellOnce(nx, nz);
    forall k | 0 <= k < |children|
      ensures children[k].TileObject? && InGrid(children[k].coord, nx, nz)
    {
      RowMajorStep(nx, nz, k);
    }
    forall x, z | 0 <= x < nx && 0 <= z < nz
      ensures TileObject(Coord(x, z)) in children
    {
      TileChildPosition(nx, nz, x, z);
    }
    forall k1, k2 | 0 <= k1 < k2 < |children|
      ensures children[k1] != children[k2]
    {
      assert created[k1] != created[k2];
    }
  }

  /** The part both versions of `GenerateWorld` share: check the prefab,
      destroy every previous child, allocate the grid, create and generate
      every tile, wire the neighbours. A missing prefab changes nothing; a
      negative dimension makes the allocation throw after the children are
      already gone. */
  method RebuildGrid(cfg: Config, noise: Noise, scene: Scene) returns (status: GenStatus, scene': Scene)
    requires cfg.heightmapResolution >= 2
    ensures status == MissingPrefab <==> cfg.tilePrefab.None?
    ensures status == NegativeDimensions <==> cfg.tilePrefab.Some? && (cfg.tilesX < 0 || cfg.tilesZ < 0)
    ensures status == MissingPrefab ==> scene' == scene
    ensures status == NegativeDimensions ==> scene' == scene.(children := [])
    ensures status == Generated ==>
      && GridInvariant(scene'.tiles, cfg, noise)
      && |scene'.children| == cfg.tilesX * cfg.tilesZ
      && (forall k | 0 <= k < |scene'.children| ::
            scene'.children[k].TileObject? && InGrid(scene'.children[k].coord, cfg.tilesX, cfg.tilesZ))
      && (forall x, z | 0 <= x < cfg.tilesX && 0 <= z < cfg.tilesZ ::
            TileObject(Coord(x, z)) in scene'.children)
      && (forall k1, k2 | 0 <= k1 < k2 < |scene'.children| :: scene'.children[k1] != scene'.children[k2])
      && scene'.players == scene.players
      && scene'.navMeshBuilds == scene.navMeshBuilds
  {
    if cfg.tilePrefab.None? {
      return MissingPrefab, scene;
    }
    if cfg.tilesX < 0 || cfg.tilesZ < 0 {
      return NegativeDimensions, scene.(children := []);
    }
    var tiles, created := BuildTiles(cfg, noise);
    var wired := SetupNeighbors(tiles, cfg.tilesX, cfg.tilesZ);
    TileChildrenExact(cfg.tilesX, cfg.tilesZ);
    return Generated, scene.(children := TileChildren(cfg.tilesX, cfg.tilesZ), tiles := wired);
  }

  /** The earlier version of `GenerateWorld`: rebuild and wire the grid, with
      exactly the outcomes of the shared rebuild. */
  method GenerateWorldEarly(cfg: Config, noise: Noise, scene: Scene) returns (status: GenStatus, scene': Scene)
    requires cfg.heightmapResolution >= 2
    ensures status == MissingPrefab <==> cfg.tilePrefab.None?
    ensures status == NegativeDimensions <==> cfg.tilePrefab.Some? && (cfg.tilesX < 0 || cfg.tilesZ < 0)
    ensures status == MissingPrefab ==> scene' == scene
    ensures status == NegativeDimensions ==> scene' == scene.(children := [])
    ensures status == Generated ==>
      && GridInvariant(scene'.tiles, cfg, noise)
      && |scene'.children| == cfg.tilesX * cfg.tilesZ
      && (forall k | 0 <= k < |scene'.children| ::
            scene'.children[k].TileObject? && InGrid(scene'.children[k].coord, cfg.tilesX, cfg.tilesZ))
      && (forall x, z | 0 <= x < cfg.tilesX && 0 <= z < cfg.tilesZ ::
            TileObject(Coord(x, z)) in scene'.children)
      && (forall k1, k2 | 0 <= k1 < k2 < |scene'.children| :: scene'.children[k1] != scene'.children[k2])
      && scene'.players == scene.players
      && scene'.navMeshBuilds == scene.navMeshBuilds
  {
    status, scene' := RebuildGrid(cfg, noise, scene);
  }

  // ------------------------------------------------------- seams across the grid

  /** On a generated grid, each tile's last column of samples equals the first
      column of its right neighbour, and its last row the first row of its
      top neighbour. */
  lemma GridIsSeamless(tiles: seq<seq<Tile>>, cfg: Config, noise: Noise, x: int, z: int)
    requires cfg.tilePrefab.Some? && cfg.tilePrefab.value.hasChunk && cfg.heightmapResolution >= 2
    requires GridInvariant(tiles, cfg, noise)
    requires InGrid(Coord(x, z), cfg.tilesX, cfg.tilesZ)
    ensures x + 1 < cfg.tilesX ==>
      forall j | 0 <= j < cfg.heightmapResolution ::
        tiles[x][z].heights.value[j][cfg.heightmapResolution - 1] == tiles[x + 1][z].heights.value[j][0]
    ensures z + 1 < cfg.tilesZ ==>
      tiles[x][z].heights.value[cfg.heightmapResolution - 1] == tiles[x][z + 1].heights.value[0]
  {
    var res := cfg.heightmapResolution;
    var p := tiles[x][z].chunk.value;
    assert TileInvariant(tiles[x][z], cfg, noise, x, z);
    if x + 1 < cfg.tilesX {
      assert TileInvariant(tiles[x + 1][z], cfg, noise, x + 1, z);
      var q := tiles[x + 1][z].chunk.value;
      assert (x + 1) as real * cfg.tileSize == x as real * cfg.tileSize + cfg.tileSize;
      SeamAlongX(noise, p, q, res);
    }
    if z + 1 < cfg.tilesZ {
      assert TileInvariant(tiles[x][z + 1], cfg, noise, x, z + 1);
      var q := tiles[x][z + 1].chunk.value;
      assert (z + 1) as real * cfg.tileSize == z as real * cfg.tileSize + cfg.tileSize;
      SeamAlongZ(noise, p, q, res);
      assert Heights(noise, p, res)[res - 1] == Heights(noise, q, res)[0];
    }
  }

  // ------------------------------------------------------- height query

  /** The tile index along one axis owning world coordinate `w`. */
  function TileIndex(w: real, tileSize: real): int
    requires tileSize != 0.0
  {
    (w / tileSize).Floor
  }

  /** The tile `GetHeightAt` resolves a world position to, or None when the
      index is out of range. With a zero tile size the division yields a
      non-finite value whose integer conversion is out of range. */
  function OwnerOf(cfg: Config, pos: Vec3): (r: Option<Coord>)
    ensures r.Some? ==> InGrid(r.value, cfg.tilesX, cfg.tilesZ)
  {
    if cfg.tileSize == 0.0 then None
    else
      var tx := TileIndex(pos.x, cfg.tileSize);
      var tz := TileIndex(pos.z, cfg.tileSize);
      if tx < 0 || tx >= cfg.tilesX || tz < 0 || tz >= cfg.tilesZ then None
      else Some(Coord(tx, tz))
  }

  /** `GetHeightAt`: the owning tile's sampled ground height plus the tile's
      own elevation, or 0 outside the grid. */
  function GetHeightAt(cfg: Config, tiles: seq<seq<Tile>>, sample: Sampler, pos: Vec3): (h: real)
    requires Shaped(tiles, cfg.tilesX, cfg.tilesZ)
    ensures OwnerOf(cfg, pos).None? ==> h == 0.0
  {
    match OwnerOf(cfg, pos)
    case None => 0.0
    case Some(c) =>
      var t := tiles[c.x][c.z];
      sample(t, pos) + t.position.y
  }

  /** Along one axis with positive tile size: index `i` owns `w` iff `w` lies
      in `[i * tileSize, (i + 1) * tileSize)`. */
  lemma TileIndexIsOwner(w: real, tileSize: real, i: int)
    requires tileSize > 0.0
    ensures TileIndex(w, tileSize) == i <==> i as real * tileSize <= w < (i + 1) as real * tileSize
  {
    var q := w / tileSize;
    assert q * tileSize == w;
    var f := q.Floor;
    assert f as real <= q < f as real + 1.0;
    assert f as real * tileSize <= w by {
      assert (q - f as real) * tileSize >= 0.0;
      assert (q - f as real) * tileSize == w - f as real * tileSize;
    }
    assert w < (f + 1) as real * tileSize by {
      var g := f as real + 1.0 - q;
      assert g > 0.0;
      assert g * tileSize > 0.0;
      assert g * tileSize == (f + 1) as real * tileSize - w;
    }
    if i as real * tileSize <= w < (i + 1) as real * tileSize {
      SameCellSameIndex(w, tileSize, i, f);
    }
  }

  /** Two cells of width `ts` that both contain `w` are the same cell. */
  lemma SameCellSameIndex(w: real, ts: real, i: int, j: int)
    requires ts > 0.0
    requires i as real * ts <= w < (i + 1) as real * ts
    requires j as real * ts <= w < (j + 1) as real * ts
    ensures i == j
  {
    ScaledOrder(i, j + 1, ts, w);
    ScaledOrder(j, i + 1, ts, w);
  }

  /** A value at or above `a * ts` and below `b * ts`, for positive `ts`,
      puts `a` below `b`. */
  lemma ScaledOrder(a: int, b: int, ts: real, w: real)
    requires ts > 0.0
    requires a as real * ts <= w < b as real * ts
    ensures a < b
  {
  }

  /** For positive tile size: a position inside the world's footprint
      resolves to an in-range tile, and that tile's footprint contains it; a
      position outside resolves to nothing. */
  lemma OwnerContainsPoint(cfg: Config, pos: Vec3)
    requires cfg.tileSize > 0.0
    ensures OwnerOf(cfg, pos).Some? <==>
      0.0 <= pos.x < cfg.tilesX as real * cfg.tileSize && 0.0 <= pos.z < cfg.tilesZ as real * cfg.tileSize
    ensures OwnerOf(cfg, pos).Some? ==>
      var c := OwnerOf(cfg, pos).value;
      && c.x as real * cfg.tileSize <= pos.x < (c.x + 1) as real * cfg.tileSize
      && c.z as real * cfg.tileSize <= pos.z < (c.z + 1) as real * cfg.tileSize
  {
    var ts := cfg.tileSize;
    var tx := TileIndex(pos.x, ts);
    var tz := TileIndex(pos.z, ts);
    TileIndexIsOwner(pos.x, ts, tx);
    TileIndexIsOwner(pos.z, ts, tz);
    AxisInRange(pos.x, ts, tx, cfg.tilesX);
    AxisInRange(pos.z, ts, tz, cfg.tilesZ);
  }

  /** One axis of the above: the owning index is in `[0, n)` exactly when the
      coordinate is in `[0, n * tileSize)`. */
  lemma AxisInRange(w: real, ts: real, i: int, n: int)
    requires ts > 0.0
    requires i as real * ts <= w < (i + 1) as real * ts
    ensures 0 <= i < n <==> 0.0 <= w < n as real * ts
  {
  }

  /** On a generated grid with positive tile size, the height query at a
      position inside the world is the ground sampled on the tile whose
      footprint contains it (tiles sit at elevation 0). */
  lemma HeightQueryUsesContainingTile(tiles: seq<seq<Tile>>, cfg: Config, noise: Noise, sample: Sampler, pos: Vec3, c: Coord)
    requires cfg.tilePrefab.Some? && cfg.heightmapResolution >= 2 && cfg.tileSize > 0.0
    requires GridInvariant(tiles, cfg, noise)
    requires InGrid(c, cfg.tilesX, cfg.tilesZ)
    requires tiles[c.x][c.z].position.x <= pos.x < tiles[c.x][c.z].position.x + cfg.tileSize
    requires tiles[c.x][c.z].position.z <= pos.z < tiles[c.x][c.z].position.z + cfg.tileSize
    ensures GetHeightAt(cfg, tiles, sample, pos) == sample(tiles[c.x][c.z], pos)
  {
    var t := tiles[c.x][c.z];
    assert TileInvariant(t, cfg, noise, c.x, c.z);
    assert t.position.y == 0.0;
    assert (c.x + 1) as real * cfg.tileSize == c.x as real * cfg.tileSize + cfg.tileSize;
    assert (c.z + 1) as real * cfg.tileSize == c.z as real * cfg.tileSize + cfg.tileSize;
    TileIndexIsOwner(pos.x, cfg.tileSize, c.x);
    TileIndexIsOwner(pos.z, cfg.tileSize, c.z);
    assert OwnerOf(cfg, pos) == Some(c);
  }

  // ------------------------------------------------------- spawning (later version)

  function WorldSizeX(cfg: Config): real { cfg.tilesX as real * cfg.tileSize }
  function WorldSizeZ(cfg: Config): real { cfg.tilesZ as real * cfg.tileSize }

  /** `SpawnPlayer`: one unit above the ground at the world centre. */
  function SpawnPlayer(cfg: Config, sp: SpawnConfig, tiles: seq<seq<Tile>>, sample: Sampler): (r: Option<Vec3>)
    requires Shaped(tiles, cfg.tilesX, cfg.tilesZ)
    ensures r.Some? <==> sp.hasPlayerPrefab
    ensures r.Some? ==>
      && 2.0 * r.value.x == WorldSizeX(cfg) && 2.0 * r.value.z == WorldSizeZ(cfg)
      && r.value.y == GetHeightAt(cfg, tiles, sample, Vec3(r.value.x, 0.0, r.value.z)) + 1.0
  {
    if !sp.hasPlayerPrefab then None
    else
      var pos := Vec3(WorldSizeX(cfg) / 2.0, 0.0, WorldSizeZ(cfg) / 2.0);
      Some(pos.(y := GetHeightAt(cfg, tiles, sample, pos) + 1.0))
  }

  predicate ValidScatterDraw(d: ScatterDraw, n: int) {
    0 <= d.pick < n && UnitFraction(d.fx) && UnitFraction(d.fz) && UnitFraction(d.fyaw) && UnitFraction(d.fscale)
  }

  /** The prefab array entry a draw picks (None for a null entry). */
  function Picked(prefabs: seq<Option<PrefabId>>, d: ScatterDraw): (r: Option<PrefabId>)
    ensures r.Some? ==> r in prefabs
  {
    if 0 <= d.pick < |prefabs| then prefabs[d.pick] else None
  }

  /** The non-null prefab entries the draws pick, in draw order: one per
      iteration of `ScatterPrefabs` that does not `continue`. */
  function NonNullPicks(prefabs: seq<Option<PrefabId>>, draws: seq<ScatterDraw>): (r: seq<PrefabId>)
    ensures |r| <= |draws|
    ensures (forall d <- draws :: Picked(prefabs, d).Some?) ==> |r| == |draws|
    decreases |draws|
  {
    if |draws| == 0 then []
    else
      assert forall d <- draws[1..] :: d in draws;
      var rest := NonNullPicks(prefabs, draws[1..]);
      match Picked(prefabs, draws[0])
      case None => rest
      case Some(id) => [id] + rest
  }

  /** What every object `ScatterPrefabs` places satisfies. */
  ghost predicate ScatteredWell(c: Child, cfg: Config, sp: SpawnConfig, tiles: seq<seq<Tile>>, sample: Sampler, prefabs: seq<Option<PrefabId>>)
    requires Shaped(tiles, cfg.tilesX, cfg.tilesZ)
  {
    && c.Decoration?
    && Some(c.prefab) in prefabs
    && (sp.spawnMargin <= WorldSizeX(cfg) - sp.spawnMargin ==>
          sp.spawnMargin <= c.position.x <= WorldSizeX(cfg) - sp.spawnMargin)
    && (sp.spawnMargin <= WorldSizeZ(cfg) - sp.spawnMargin ==>
          sp.spawnMargin <= c.position.z <= WorldSizeZ(cfg) - sp.spawnMargin)
    && c.position.y == GetHeightAt(cfg, tiles, sample, Vec3(c.position.x, 0.0, c.position.z))
    && 0.0 <= c.yaw <= 360.0
    && 0.8 <= c.scale <= 1.3
  }

  /** The object one iteration of `ScatterPrefabs` places for prefab `id`,
      from the draw's position, yaw and scale fractions. */
  function ScatterOne(cfg: Config, sp: SpawnConfig, tiles: seq<seq<Tile>>, sample: Sampler,
                      prefabs: seq<Option<PrefabId>>, d: ScatterDraw, id: PrefabId): (c: Child)
    requires Shaped(tiles, cfg.tilesX, cfg.tilesZ)
    requires ValidScatterDraw(d, |prefabs|) && Some(id) in prefabs
    ensures c.Decoration? && c.prefab == id
    ensures ScatteredWell(c, cfg, sp, tiles, sample, prefabs)
  {
    var x := RandomRange(sp.spawnMargin, WorldSizeX(cfg) - sp.spawnMargin, d.fx);
    var z := RandomRange(sp.spawnMargin, WorldSizeZ(cfg) - sp.spawnMargin, d.fz);
    var pos := Vec3(x, GetHeightAt(cfg, tiles, sample, Vec3(x, 0.0, z)), z);
    Decoration(id, pos, RandomRange(0.0, 360.0, d.fyaw), RandomRange(0.8, 1.3, d.fscale))
  }

  /** The loop of `ScatterPrefabs`: a draw whose picked entry is null
      places nothing (`continue`); any other draw places one object. */
  function ScatterLoop(cfg: Config, sp: SpawnConfig, tiles: seq<seq<Tile>>, sample: Sampler,
                       prefabs: seq<Option<PrefabId>>, draws: seq<ScatterDraw>): seq<Child>
    requires Shaped(tiles, cfg.tilesX, cfg.tilesZ)
    requires forall d <- draws :: ValidScatterDraw(d, |prefabs|)
    decreases |draws|
  {
    if |draws| == 0 then []
    else
      assert draws[0] in draws;
      var rest := ScatterLoop(cfg, sp, tiles, sample, prefabs, draws[1..]);
      match Picked(prefabs, draws[0])
      case None => rest
      case Some(id) => [ScatterOne(cfg, sp, tiles, sample, prefabs, draws[0], id)] + rest
  }

  /** The placed objects are decorations of the given picks, one each, in order. */
  predicate FollowsPicks(placed: seq<Child>, picks: seq<PrefabId>) {
    && |placed| == |picks|
    && (|placed| > 0 ==>
          && placed[0].Decoration? && placed[0].prefab == picks[0]
          && FollowsPicks(placed[1..], picks[1..]))
  }

  /** `FollowsPicks` position by position: object `k` is a decoration of pick `k`. */
  lemma {:induction false} FollowsPicksAt(placed: seq<Child>, picks: seq<PrefabId>)
    requires FollowsPicks(placed, picks)
    ensures |placed| == |picks|
    ensures forall k | 0 <= k < |placed| :: placed[k].Decoration? && placed[k].prefab == picks[k]
    decreases |placed|
  {
    if |placed| > 0 {
      FollowsPicksAt(placed[1..], picks[1..]);
      assert forall k | 1 <= k < |placed| :: placed[k] == placed[1..][k - 1] && picks[k] == picks[1..][k - 1];
    }
  }

  /** The loop places exactly one object per non-null pick, in draw order,
      each of the prefab its own draw picked. */
  lemma {:induction false} ScatterLoopFollowsPicks(cfg: Config, sp: SpawnConfig, tiles: seq<seq<Tile>>, sample: Sampler,
                                                   prefabs: seq<Option<PrefabId>>, draws: seq<ScatterDraw>)
    requires Shaped(tiles, cfg.tilesX, cfg.tilesZ)
    requires forall d <- draws :: ValidScatterDraw(d, |prefabs|)
    ensures FollowsPicks(ScatterLoop(cfg, sp, tiles, sample, prefabs, draws), NonNullPicks(prefabs, draws))
    decreases |draws|
  {
    if |draws| > 0 {
      assert draws[0] in draws;
      assert forall e <- draws[1..] :: e in draws;
      ScatterLoopFollowsPicks(cfg, sp, tiles, sample, prefabs, draws[1..]);
      var rest := ScatterLoop(cfg, sp, tiles, sample, prefabs, draws[1..]);
      var restPicks := NonNullPicks(prefabs, draws[1..]);
      match Picked(prefabs, draws[0])
      case None =>
        assert ScatterLoop(cfg, sp, tiles, sample, prefabs, draws) == rest;
        assert NonNullPicks(prefabs, draws) == restPicks;
      case Some(id) =>
        var c := ScatterOne(cfg, sp, tiles, sample, prefabs, draws[0], id);
        assert ScatterLoop(cfg, sp, tiles, sample, prefabs, draws) == [c] + rest;
        assert NonNullPicks(prefabs, draws) == [id] + restPicks;
        assert ([c] + rest)[1..] == rest && ([id] + restPicks)[1..] == restPicks;
    }
  }

  /** Every object the loop places stands inside the margins at ground
      height, with yaw in [0, 360] and scale in [0.8, 1.3]. */
  lemma {:induction false} ScatterLoopPlacesWell(cfg: Config, sp: SpawnConfig, tiles: seq<seq<Tile>>, sample: Sampler,
                                                 prefabs: seq<Option<PrefabId>>, draws: seq<ScatterDraw>)
    requires Shaped(tiles, cfg.tilesX, cfg.tilesZ)
    requires forall d <- draws :: ValidScatterDraw(d, |prefabs|)
    ensures forall k | 0 <= k < |ScatterLoop(cfg, sp, tiles, sample, prefabs, draws)| ::
      ScatteredWell(ScatterLoop(cfg, sp, tiles, sample, prefabs, draws)[k], cfg, sp, tiles, sample, prefabs)
    decreases |draws|
  {
    if |draws| > 0 {
      assert forall e <- draws[1..] :: e in draws;
      ScatterLoopPlacesWell(cfg, sp, tiles, sample, prefabs, draws[1..]);
    }
  }

  /** `ScatterPrefabs`: nothing when the prefab array is empty or the count
      is not positive, otherwise one draw per iteration. */
  function ScatterPrefabs(cfg: Config, sp: SpawnConfig, tiles: seq<seq<Tile>>, sample: Sampler,
                          prefabs: seq<Option<PrefabId>>, count: int, draws: seq<ScatterDraw>): (r: seq<Child>)
    requires Shaped(tiles, cfg.tilesX, cfg.tilesZ)
    requires |prefabs| > 0 && count > 0 ==>
      |draws| == count && forall d <- draws :: ValidScatterDraw(d, |prefabs|)
    ensures |prefabs| == 0 || count <= 0 ==> r == []
    ensures |r| <= if count > 0 then count else 0
    ensures |prefabs| > 0 && count > 0 ==>
      && |r| == |NonNullPicks(prefabs, draws)|
      && forall k | 0 <= k < |r| :: r[k].Decoration? && r[k].prefab == NonNullPicks(prefabs, draws)[k]
    ensures forall k | 0 <= k < |r| :: ScatteredWell(r[k], cfg, sp, tiles, sample, prefabs)
  {
    if |prefabs| == 0 || count <= 0 then []
    else
      ScatterLoopFollowsPicks(cfg, sp, tiles, sample, prefabs, draws);
      FollowsPicksAt(ScatterLoop(cfg, sp, tiles, sample, prefabs, draws), NonNullPicks(prefabs, draws));
      ScatterLoopPlacesWell(cfg, sp, tiles, sample, prefabs, draws);
      ScatterLoop(cfg, sp, tiles, sample, prefabs, draws)
  }

  /** `SpawnEnemies`: `enemyCount` enemies at ground height, each within the
      middle half of the world along both axes (with the bounds reversed
      when a negative tile size makes the world extend the other way). */
  function SpawnEnemies(cfg: Config, sp: SpawnConfig, tiles: seq<seq<Tile>>, sample: Sampler, draws: seq<EnemyDraw>): (r: seq<Child>)
    requires Shaped(tiles, cfg.tilesX, cfg.tilesZ)
    requires sp.enemyPrefab.Some? && sp.enemyCount > 0 ==>
      |draws| == sp.enemyCount && forall i | 0 <= i < |draws| :: UnitFraction(draws[i].fx) && UnitFraction(draws[i].fz)
    ensures |r| == if sp.enemyPrefab.Some? && sp.enemyCount > 0 then sp.enemyCount else 0
    ensures forall k | 0 <= k < |r| ::
      && r[k].EnemyObject? && r[k].prefab == sp.enemyPrefab.value
      && (WorldSizeX(cfg) >= 0.0 ==> 0.25 * WorldSizeX(cfg) <= r[k].position.x <= 0.75 * WorldSizeX(cfg))
      && (WorldSizeZ(cfg) >= 0.0 ==> 0.25 * WorldSizeZ(cfg) <= r[k].position.z <= 0.75 * WorldSizeZ(cfg))
      && (WorldSizeX(cfg) <= 0.0 ==> 0.75 * WorldSizeX(cfg) <= r[k].position.x <= 0.25 * WorldSizeX(cfg))
      && (WorldSizeZ(cfg) <= 0.0 ==> 0.75 * WorldSizeZ(cfg) <= r[k].position.z <= 0.25 * WorldSizeZ(cfg))
      && r[k].position.y == GetHeightAt(cfg, tiles, sample, Vec3(r[k].position.x, 0.0, r[k].position.z))
  {
    if sp.enemyPrefab.None? || sp.enemyCount <= 0 then []
    else
      seq(sp.enemyCount, i requires 0 <= i < sp.enemyCount =>
        var x := RandomRange(WorldSizeX(cfg) * 0.25, WorldSizeX(cfg) * 0.75, draws[i].fx);
        var z := RandomRange(WorldSizeZ(cfg) * 0.25, WorldSizeZ(cfg) * 0.75, draws[i].fz);
        EnemyObject(sp.enemyPrefab.value, Vec3(x, GetHeightAt(cfg, tiles, sample, Vec3(x, 0.0, z)), z)))
  }

  predicate DrawsFit(sp: SpawnConfig, draws: Draws) {
    && (|sp.treePrefabs| > 0 && sp.treeCount > 0 ==>
          |draws.trees| == sp.treeCount && forall d <- draws.trees :: ValidScatterDraw(d, |sp.treePrefabs|))
    && (|sp.rockPrefabs| > 0 && sp.rockCount > 0 ==>
          |draws.rocks| == sp.rockCount && forall d <- draws.rocks :: ValidScatterDraw(d, |sp.rockPrefabs|))
    && (|sp.bushPrefabs| > 0 && sp.bushCount > 0 ==>
          |draws.bushes| == sp.bushCount && forall d <- draws.bushes :: ValidScatterDraw(d, |sp.bushPrefabs|))
    && (sp.enemyPrefab.Some? && sp.enemyCount > 0 ==>
          |draws.enemies| == sp.enemyCount &&
          forall i | 0 <= i < |draws.enemies| :: UnitFraction(draws.enemies[i].fx) && UnitFraction(draws.enemies[i].fz))
  }

  /** How many objects one `ScatterPrefabs` call places: one per non-null
      pick, or none for an empty array or a non-positive count. */
  function ScatterCount(prefabs: seq<Option<PrefabId>>, count: int, draws: seq<ScatterDraw>): nat {
    if |prefabs| == 0 || count <= 0 then 0 else |NonNullPicks(prefabs, draws)|
  }

  /** How many enemies `SpawnEnemies` places. */
  function EnemyTotal(sp: SpawnConfig): nat {
    if sp.enemyPrefab.Some? && sp.enemyCount > 0 then sp.enemyCount else 0
  }

  /** The objects the later version parents to the manager after the grid:
      trees, rocks, bushes, then enemies; none of them is a tile. */
  function SpawnChildren(cfg: Config, sp: SpawnConfig, tiles: seq<seq<Tile>>, sample: Sampler, draws: Draws): (r: seq<Child>)
    requires Shaped(tiles, cfg.tilesX, cfg.tilesZ)
    requires DrawsFit(sp, draws)
    ensures forall k | 0 <= k < |r| :: !r[k].TileObject?
    ensures |r| == ScatterCount(sp.treePrefabs, sp.treeCount, draws.trees)
                 + ScatterCount(sp.rockPrefabs, sp.rockCount, draws.rocks)
                 + ScatterCount(sp.bushPrefabs, sp.bushCount, draws.bushes)
                 + EnemyTotal(sp)
    ensures forall k | 0 <= k < |r| - EnemyTotal(sp) :: r[k].Decoration?
    ensures forall k | |r| - EnemyTotal(sp) <= k < |r| ::
      r[k].EnemyObject? && r[k].prefab == sp.enemyPrefab.value
  {
    var trees := ScatterPrefabs(cfg, sp, tiles, sample, sp.treePrefabs, sp.treeCount, draws.trees);
    var rocks := ScatterPrefabs(cfg, sp, tiles, sample, sp.rockPrefabs, sp.rockCount, draws.rocks);
    var bushes := ScatterPrefabs(cfg, sp, tiles, sample, sp.bushPrefabs, sp.bushCount, draws.bushes);
    var enemies := SpawnEnemies(cfg, sp, tiles, sample, draws.enemies);
    assert |trees| == ScatterCount(sp.treePrefabs, sp.treeCount, draws.trees);
    assert |rocks| == ScatterCount(sp.rockPrefabs, sp.rockCount, draws.rocks);
    assert |bushes| == ScatterCount(sp.bushPrefabs, sp.bushCount, draws.bushes);
    LaidOut(trees, rocks, bushes, enemies, sp.enemyPrefab);
    trees + rocks + bushes + enemies
  }

  /** Decorations followed by enemies of one prefab: the positions before the
      enemies hold decorations, the rest enemies, and nothing is a tile. */
  lemma LaidOut(trees: seq<Child>, rocks: seq<Child>, bushes: seq<Child>, enemies: seq<Child>, enemy: Option<PrefabId>)
    requires forall k | 0 <= k < |trees| :: trees[k].Decoration?
    requires forall k | 0 <= k < |rocks| :: rocks[k].Decoration?
    requires forall k | 0 <= k < |bushes| :: bushes[k].Decoration?
    requires forall k | 0 <= k < |enemies| :: enemies[k].EnemyObject? && enemy == Some(enemies[k].prefab)
    ensures var r := trees + rocks + bushes + enemies;
      && (forall k | 0 <= k < |r| - |enemies| :: r[k].Decoration?)
      && (forall k | |r| - |enemies| <= k < |r| :: r[k].EnemyObject? && enemy == Some(r[k].prefab))
  {
    var r := trees + rocks + bushes + enemies;
    forall k | 0 <= k < |r| - |enemies|
      ensures r[k].Decoration?
    {
      if k < |trees| {
        assert r[k] == trees[k];
      } else if k < |trees| + |rocks| {
        assert r[k] == rocks[k - |trees|];
      } else {
        assert r[k] == bushes[k - |trees| - |rocks|];
      }
    }
    forall k | |r| - |enemies| <= k < |r|
      ensures r[k].EnemyObject? && enemy == Some(r[k].prefab)
    {
      assert r[k] == enemies[k - (|r| - |enemies|)];
    }
  }

  /** The later version of `GenerateWorld`: rebuild the grid, build the
      navigation mesh when a surface is assigned, then spawn the player,
      trees, rocks, bushes and enemies, all placed by the height query over
      the new grid. */
  method GenerateWorld(cfg: Config, sp: SpawnConfig, noise: Noise, sample: Sampler, draws: Draws, scene: Scene)
    returns (status: GenStatus, scene': Scene)
    requires cfg.heightmapResolution >= 2
    requires DrawsFit(sp, draws)
    ensures status == MissingPrefab <==> cfg.tilePrefab.None?
    ensures status == NegativeDimensions <==> cfg.tilePrefab.Some? && (cfg.tilesX < 0 || cfg.tilesZ < 0)
    ensures status == MissingPrefab ==> scene' == scene
    ensures status == NegativeDimensions ==> scene' == scene.(children := [])
    ensures status == Generated ==>
      && GridInvariant(scene'.tiles, cfg, noise)
      && Shaped(scene'.tiles, cfg.tilesX, cfg.tilesZ)
      && cfg.tilesX * cfg.tilesZ <= |scene'.children|
      && scene'.children[cfg.tilesX * cfg.tilesZ..] == SpawnChildren(cfg, sp, scene'.tiles, sample, draws)
      && scene'.navMeshBuilds == scene.navMeshBuilds + (if sp.hasNavMeshSurface then 1 else 0)
      && (forall x, z | 0 <= x < cfg.tilesX && 0 <= z < cfg.tilesZ :: TileObject(Coord(x, z)) in scene'.children)
      && (forall k | 0 <= cfg.tilesX * cfg.tilesZ <= k < |scene'.children| :: !scene'.children[k].TileObject?)
      && (sp.hasPlayerPrefab ==>
            && |scene'.players| == |scene.players| + 1
            && scene'.players[..|scene.players|] == scene.players
            && 2.0 * scene'.players[|scene.players|].x == WorldSizeX(cfg)
            && 2.0 * scene'.players[|scene.players|].z == WorldSizeZ(cfg)
            && var p := scene'.players[|scene.players|];
               p.y == GetHeightAt(cfg, scene'.tiles, sample, Vec3(p.x, 0.0, p.z)) + 1.0)
      && (!sp.hasPlayerPrefab ==> scene'.players == scene.players)
  {
    var grid;
    status, grid := RebuildGrid(cfg, noise, scene);
    if status != Generated {
      return status, grid;
    }
    scene' := Populate(cfg, sp, sample, draws, grid);
    assert |grid.children| == cfg.tilesX * cfg.tilesZ && scene'.tiles == grid.tiles;
  }

  /** What the later version does after the grid is rebuilt: build the
      navigation mesh when a surface is set, spawn the player without a
      parent, and parent the spawned objects to the manager after the tiles. */
  function Populate(cfg: Config, sp: SpawnConfig, sample: Sampler, draws: Draws, grid: Scene): (r: Scene)
    requires Shaped(grid.tiles, cfg.tilesX, cfg.tilesZ)
    requires DrawsFit(sp, draws)
    ensures r.tiles == grid.tiles
    ensures r.navMeshBuilds == grid.navMeshBuilds + (if sp.hasNavMeshSurface then 1 else 0)
    ensures |grid.children| <= |r.children| && r.children[..|grid.children|] == grid.children
    ensures r.children[|grid.children|..] == SpawnChildren(cfg, sp, grid.tiles, sample, draws)
    ensures forall c <- grid.children :: c in r.children
    ensures forall k | |grid.children| <= k < |r.children| :: !r.children[k].TileObject?
    ensures r.players == grid.players + match SpawnPlayer(cfg, sp, grid.tiles, sample) { case Some(p) => [p] case None => [] }
  {
    var spawned := SpawnChildren(cfg, sp, grid.tiles, sample, draws);
    var children := grid.children + spawned;
    assert children[..|grid.children|] == grid.children;
    assert children[|grid.children|..] == spawned;
    var player := SpawnPlayer(cfg, sp, grid.tiles, sample);
    var players := grid.players + match player { case Some(p) => [p] case None => [] };
    Scene(children, grid.tiles, players, grid.navMeshBuilds + if sp.hasNavMeshSurface then 1 else 0)
  }
}

=== FILE: wrappers.dfy ===
/** The game scripts' nullable references (a missing component, an
    unassigned prefab, a border neighbour) as an explicit datatype. */
module Wrappers {

  datatype Option<+T> = None | Some(value: T) {

    /** Returns the value held in Some, or `default` for None. */
    function GetOr(default: T): T {
      match this
      case Some(v) => v
      case None => default
    }
  }
}
